=== FILE: README.md ===
# Kotlin/Native LLDB object introspection, modelled in Dafny

This project models the runtime object-introspection engine of the Kotlin/Native LLDB script
`konan_lldb.py`. Given a `struct ObjHeader *` value in a stopped process, the engine does five things:

- It applies the summary hook's self-reference ("type info") gate.
- It classifies the object as a string, an array or an ordinary object, asking in that order.
- It takes a field snapshot: the count, the type tags, the type names and the field addresses.
- It converts each field by its type tag. Integer tags become little-endian signed reads, the
  char tag a one-byte string, tags 0 and 8 an address-only text, and tag 1 a recursive summary.
- It builds one of three synthetic providers (string, object, array) and answers the host's
  child queries through it.

The host debugger is a pure oracle. `Host.Target` bundles three things:

- a function from each expression the script evaluates (`Host.Query`) to the value the host
  returns (`Host.SBValue`);
- the process memory as a partial map from address to byte;
- the host's policy for the shared `SBError` object.

A memory read is "successful" when every byte it touches is mapped. Python exceptions become
`Faults.Result.Raise` with a `Faults.Fault` naming the exception:

- `TypeError` from `int(None)`, when a host value has no text;
- `ValueError` from `int(...)` of text that is not an integer, and from `list.index`;
- `KeyError` for an unknown tag;
- `IndexError`, `AttributeError`, `struct.error` and `DebuggerException`;
- the recursion limit.

The script is read as Python 3. `int(s)` and `int(s, 0)` follow Python 3: they strip surrounding
ASCII whitespace, and `int(s, 0)` rejects a decimal literal with a leading zero such as `017`.
Text read from memory has one character per byte, which is exact for ASCII.

Modules:

- `Faults`: `Option`, `Result`, and the two list-comprehension shapes the script uses. The first
  is a comprehension whose element may raise. The second is a comprehension whose `if` filter
  reads a shared error object.
- `Bytes`: memory, exact-size reads and bounded C-string reads.
- `LittleEndian`: unsigned assembly and two's-complement reinterpretation, as `struct.unpack`
  does with `<h`, `<i` and `<q`.
- `Numerals`: `"{:#x}".format`, the host's decimal printing, `int(s)` and `int(s, 0)`.
- `Host`: the oracle, `GetValue`, `GetValueAsUnsigned`, and how the error object evolves.
- `Introspection`: the engine itself.
- `DispatchProperties`, `DecodingProperties` and `ProviderProperties`: lemmas that relate the
  operations to each other and to their independent partners. The partners are the byte
  encoding, the hex round trip, the error-object characterisations and the C-string shape.

## Behaviour at the edges

The model follows the code. A few of its consequences are easy to miss.

- A field whose name read fails is not dropped from the object's names.
  - The filter `if error.Success()` is tested before each read. The host clears the error object
    at the start of each C-string read, so the filter sees only the previous read's outcome.
  - So the field whose read fails is kept, with its partial name, and every later field is skipped.
  - The child list then indexes the names over the whole count. So it raises `IndexError`
    unless the failing field was the last one.
  - A built object provider therefore always has exactly one name per counted field.
  - See `ProviderProperties.ObjectNamesStopAtFirstFailedRead`.
- Whether one failed element read aborts the array provider depends on whether a later
  successful read clears the shared error object. That is host behaviour the script does not fix.
  - With a sticky error object, any failed read aborts.
  - With an error object that each read clears, only the last memory-reading element counts.
  - Both are proved, as `StickyArrayRaisesOnAnyFailedRead` and
    `ClearingArrayRaisesOnLastFailedRead`.
- Tag 2 is unpacked with `<c`, which gives a one-character byte string, not a number.
- Tag 9 (boolean) never converts:
  - the name table has no entry 9, so the snapshot raises `KeyError`;
  - the conversion `<?` over 4 bytes would raise `struct.error` anyway.
- `update` assigns its attributes one list at a time. An exception part-way leaves a
  half-updated provider: new count and tags next to old type names, addresses, names and
  children. See `ProviderProperties.HalfUpdatedObject`.
- The array provider's `get_child_index` compares against `self._num_children`, which no code
  sets. It answers `None` for a negative index, because the comparison stops at `0 <= index`,
  and raises `AttributeError` for any other number.
- `ReadCStringFromMemory(addr, size, error)` counts the terminator in `size`. So a name read
  returns at most 4095 bytes. The string provider reads at most one byte less than the length
  the runtime reports; if that length does not count a terminator, the last byte is not shown.

## Model

| member | source | states |
|---|---|---|
| Faults.ListOf | llvmDebugInfoC/src/scripts/konan_lldb.py:126-129 | a comprehension over `range(lo, hi)` succeeds iff every element does, then lists them in order; otherwise it raises the first element's exception |
| Faults.ListWhileOk | llvmDebugInfoC/src/scripts/konan_lldb.py:198-200 | a comprehension filtered on a shared error object yields nothing once the object has failed, and never more elements than the range |
| Faults.ListWhileOkPrefix | llvmDebugInfoC/src/scripts/konan_lldb.py:198-200 | that comprehension lists every element up to and including the first read that leaves the object failed, and nothing after it |
| Faults.ListWhileOkStopsAt | llvmDebugInfoC/src/scripts/konan_lldb.py:198-200 | when read k is the first to leave the object failed, the comprehension lists exactly the elements of reads up to k, that of k included |
| Faults.ListWhileOkRaises | llvmDebugInfoC/src/scripts/konan_lldb.py:198-200 | that comprehension raises iff some read raises while every earlier read left the object successful; it raises the exception of the first such read |
| Bytes.ReadMemory | llvmDebugInfoC/src/scripts/konan_lldb.py:143 | an n-byte read succeeds iff all n addresses are mapped, and then returns exactly the bytes stored there |
| Bytes.ReadStored | llvmDebugInfoC/src/scripts/konan_lldb.py:143 | reading back the bytes memory stores gives those bytes |
| Bytes.ReadIsStored | llvmDebugInfoC/src/scripts/konan_lldb.py:143 | the bytes a successful read returns are the bytes memory stores there |
| Bytes.ReadCString | llvmDebugInfoC/src/scripts/konan_lldb.py:132 | a bounded C-string read returns mapped non-zero bytes, at most the bound; it stops at a zero byte or the bound, or fails at the first unmapped address |
| Bytes.HostCString | llvmDebugInfoC/src/scripts/konan_lldb.py:132 | the host's C-string read returns fewer bytes than the buffer size, which counts the terminator; a size of 0 reads nothing and succeeds |
| Bytes.ReadTerminated | llvmDebugInfoC/src/scripts/konan_lldb.py:162 | a terminated string in memory reads back whole and without error |
| Bytes.ReadBroken | llvmDebugInfoC/src/scripts/konan_lldb.py:162 | a string that runs into unmapped memory before its terminator reads with an error |
| LittleEndian.FromToBytes | llvmDebugInfoC/src/scripts/konan_lldb.py:144 | assembling the little-endian bytes of a number gives the number back |
| LittleEndian.ToFromBytes | llvmDebugInfoC/src/scripts/konan_lldb.py:144 | every byte pattern is the little-endian encoding of the number it assembles to |
| LittleEndian.SignedRoundTrip | llvmDebugInfoC/src/scripts/konan_lldb.py:144 | decoding the two's-complement encoding of an in-range number gives it back |
| LittleEndian.SignedInverse | llvmDebugInfoC/src/scripts/konan_lldb.py:144 | every byte pattern decodes to a number whose encoding is that pattern |
| LittleEndian.IntegerRanges | llvmDebugInfoC/src/scripts/konan_lldb.py:115-117 | the 2-, 4- and 8-byte formats span exactly the 16-, 32- and 64-bit signed ranges |
| Numerals.ParseDecimal | llvmDebugInfoC/src/scripts/konan_lldb.py:124 | `int(s)` accepts only text that, stripped of whitespace, ends in a digit, and gives a negative number only after a `-` |
| Numerals.ParseLiteral | llvmDebugInfoC/src/scripts/konan_lldb.py:129 | `int(s, 0)` accepts only text that, stripped of whitespace, ends in a digit, and gives a negative number only after a `-` |
| Numerals.FormatHex | llvmDebugInfoC/src/scripts/konan_lldb.py:32 | `"{:#x}".format(n)` is `0x` and hex digits, after a `-` exactly when n is negative |
| Numerals.FormatDecimal | llvmDebugInfoC/src/scripts/konan_lldb.py:124 | the host's `(int)` text is decimal digits, after a `-` exactly when n is negative |
| Numerals.ParseDigitsRoundTrip | llvmDebugInfoC/src/scripts/konan_lldb.py:129 | the digits of a number in any base up to 16 parse back to it in that base |
| Numerals.SurroundingSpaceIgnored | llvmDebugInfoC/src/scripts/konan_lldb.py:246 | `int(s)` and `int(s, 0)` read the same number with a whitespace character before or after the text |
| Numerals.FormatHexRoundTrip | llvmDebugInfoC/src/scripts/konan_lldb.py:32 | `int("{:#x}".format(n), 0) == n` for every integer, negative ones included |
| Numerals.LeadingZerosIgnored | llvmDebugInfoC/src/scripts/konan_lldb.py:129 | leading zeros change neither whether digit text parses nor the number it reads as, in any base up to 16 |
| Numerals.PaddedHexRoundTrip | llvmDebugInfoC/src/scripts/konan_lldb.py:129 | `int("0x" + zeros + hex digits of m, 0) == m` for every run of zeros, so the host's pointer-width padding is ignored |
| Numerals.FormatDecimalRoundTrip | llvmDebugInfoC/src/scripts/konan_lldb.py:124 | `int(str(n)) == n` for every integer, negative ones included |
| Numerals.FormatHexInjective | llvmDebugInfoC/src/scripts/konan_lldb.py:32 | distinct addresses format to distinct text, so an expression built from a formatted address identifies it |
| Host.AsUnsigned | llvmDebugInfoC/src/scripts/konan_lldb.py:31 | `GetValueAsUnsigned` is the scalar reduced to 64 bits, a negative scalar wrapping to its unsigned pattern, and 0 with no scalar |
| Host.IntOf | llvmDebugInfoC/src/scripts/konan_lldb.py:124 | `int(GetValue())` yields the decimal reading of the text; it raises `TypeError` exactly when the value has no text, and `ValueError` when the text is not a decimal integer |
| Host.LiteralOf | llvmDebugInfoC/src/scripts/konan_lldb.py:129 | `int(GetValue(), 0)` yields the literal reading of the text; it raises `TypeError` exactly when the value has no text, and `ValueError` when the text is not a Python integer literal |
| Host.IntOfPrinted | llvmDebugInfoC/src/scripts/konan_lldb.py:124 | a number the host prints as `(int)` text reads back unchanged |
| Host.LiteralOfPrinted | llvmDebugInfoC/src/scripts/konan_lldb.py:32 | an address the script formats with `{:#x}` reads back unchanged through `int(..., 0)` |
| Host.LiteralOfPointer | llvmDebugInfoC/src/scripts/konan_lldb.py:129 | the host's zero-padded `(void *)` text for a field address reads back through `int(..., 0)` as that address; the same conversion reads the name pointer at :132 and the proxy's value at :260 |
| Host.AfterRead | llvmDebugInfoC/src/scripts/konan_lldb.py:143-144 | a failed read leaves the error object failed; a successful one keeps or clears an earlier failure, per the host's policy |
| Introspection.TypeInfoValid | llvmDebugInfoC/src/scripts/konan_lldb.py:54-58 | the gate passes iff the self-reference expression's text is "true"; the `IsValid()` test adds nothing, since an invalid value has no text |
| Introspection.Classify | llvmDebugInfoC/src/scripts/konan_lldb.py:83-85 | a string instance is a string; an array needs the array query to parse as 1; classification raises only for a non-string, with the array query's own exception |
| Introspection.SelectProvider | llvmDebugInfoC/src/scripts/konan_lldb.py:83-85 | the provider is a string provider iff the value is a string instance, an array provider only when the array query parses as 1, and is built for the value's address; a failed classification raises its exception |
| Introspection.Summary | llvmDebugInfoC/src/scripts/konan_lldb.py:67-80 | another static type gives the raw value, a failed gate gives "null", and any other result comes from a provider that was built |
| Introspection.TypeName | llvmDebugInfoC/src/scripts/konan_lldb.py:88-96 | the name table holds exactly tags 0 through 8, and tag 1 names `struct ObjHeader *` |
| Introspection.TakeSnapshot | llvmDebugInfoC/src/scripts/konan_lldb.py:123-129 | a complete `update` raises the count's exception on an unparsable count; it succeeds iff every counted tag has a name and every address parses; it then yields aligned lists of the queried tags, names and addresses |
| Introspection.SnapshotUpdate | llvmDebugInfoC/src/scripts/konan_lldb.py:123-129 | `update` on an existing provider completes exactly when a complete snapshot exists and then holds it; on an exception it raises the same one, keeps the old addresses, keeps everything on an unparsable count, and otherwise holds the new count and tags next to type names that are either the old ones or the names of the new tags |
| Introspection.NameAt | llvmDebugInfoC/src/scripts/konan_lldb.py:131-132 | a name read raises iff the name pointer's text does not parse, with that exception; otherwise it returns fewer than 0x1000 non-zero bytes stored at the parsed address |
| Introspection.ReadNames | llvmDebugInfoC/src/scripts/konan_lldb.py:197-200 | the object's names are the name reads up to and including the first one that fails |
| Introspection.ChildRequests | llvmDebugInfoC/src/scripts/konan_lldb.py:201-204 | the child list succeeds iff the names cover the count, then pairs name i with type name i and index i; otherwise it raises `IndexError` |
| Introspection.ObjectFields | llvmDebugInfoC/src/scripts/konan_lldb.py:195-204 | a complete object update holds the complete snapshot, one name and one child per counted field, the names being the first-failure prefix |
| Introspection.ObjectUpdate | llvmDebugInfoC/src/scripts/konan_lldb.py:195-204 | the object provider's `update` completes exactly when a complete update exists and then holds its fields; on an exception it raises the same one and keeps the old child list, and it holds new names only when the snapshot completed |
| Introspection.ArrayUpdate | llvmDebugInfoC/src/scripts/konan_lldb.py:234-237 | the array provider's `update` completes exactly when the snapshot does, then holds it with indices `0..count-1` and no values; on an exception it raises the snapshot's and keeps the old indices and values |
| Introspection.Refresh | llvmDebugInfoC/src/scripts/konan_lldb.py:165-166 | `update` keeps a provider's kind and object; the string provider's changes nothing, the others hold the staged snapshot |
| Introspection.StringRepresentation | llvmDebugInfoC/src/scripts/konan_lldb.py:148-163 | a string provider shows either the raw value or a string read from the buffer |
| Introspection.NewObjectProvider | llvmDebugInfoC/src/scripts/konan_lldb.py:189-193 | building an object provider succeeds iff a complete object update does, then holds its snapshot and names with an empty child list; otherwise it raises that update's exception |
| Introspection.Indices | llvmDebugInfoC/src/scripts/konan_lldb.py:236 | an array's child list is `0, 1, …, count - 1` |
| Introspection.Unpack | llvmDebugInfoC/src/scripts/konan_lldb.py:142-144 | `struct.unpack` raises only for tag 9; integer tags give the in-range number whose encoding is the bytes, tag 2 the byte itself, tags 6 and 7 the raw bytes |
| Introspection.ReadScalar | llvmDebugInfoC/src/scripts/konan_lldb.py:142-144 | a memory-reading conversion moves the error object as one read would, gives the error marker when the object reports failure and the unpacked bytes otherwise, and raises only for tag 9 |
| Introspection.ReadValue | llvmDebugInfoC/src/scripts/konan_lldb.py:137-140 | a field converts only when its index is in the snapshot; only a memory-reading tag changes the error object, and only as a read would |
| Introspection.ReadValues | llvmDebugInfoC/src/scripts/konan_lldb.py:255 | converting fields lo..hi in order with one error object yields one value per field, and the error object's state after those reads |
| Introspection.Construct | llvmDebugInfoC/src/scripts/konan_lldb.py:271-273 | the factory builds a provider of exactly the requested kind |
| Introspection.NewArrayProvider | llvmDebugInfoC/src/scripts/konan_lldb.py:224-232 | a built array provider holds one eagerly read value and one index per counted element |
| Introspection.ToString | llvmDebugInfoC/src/scripts/konan_lldb.py:218-220 | a string shows its representation; an array renders a list of one entry per counted element; an object renders only when its names cover the count, as a dict keyed by those names |
| Introspection.DictOf | llvmDebugInfoC/src/scripts/konan_lldb.py:220 | `dict(zip(keys, vals))` has exactly the given keys |
| Introspection.ProxyProvider | llvmDebugInfoC/src/scripts/konan_lldb.py:258-264 | the proxy raises the parse's exception on unparsable text; it holds a provider only past the gate, and then holds the selected provider after a completed `update`; otherwise it raises the selection's or the update's exception |
| Introspection.NumChildren | llvmDebugInfoC/src/scripts/konan_lldb.py:206-207 | a string reports 0 children; an object or array reports the raw count, negative ones included |
| Introspection.HasChildren | llvmDebugInfoC/src/scripts/konan_lldb.py:209-210 | a provider has children iff it reports a positive count |
| Introspection.FirstIndex | llvmDebugInfoC/src/scripts/konan_lldb.py:213 | `list.index` finds the first position of a present element, and nothing for an absent one |
| Introspection.ChildIndex | llvmDebugInfoC/src/scripts/konan_lldb.py:212-213 | an object answers a child name iff it is among its names, with the first position holding that name; an array answers `None` iff the name parses as a negative number |
| Introspection.ChildAt | llvmDebugInfoC/src/scripts/konan_lldb.py:215-216 | an object answers a child index iff it is within its child list; an array always answers with a converted value |
| DispatchProperties.ForeignTypePassesThrough | llvmDebugInfoC/src/scripts/konan_lldb.py:67-71 | a value of another static type summarises as its raw value on every target |
| DispatchProperties.NullGateAsksNothingElse | llvmDebugInfoC/src/scripts/konan_lldb.py:73-74 | a failed gate gives "null" on every target that answers the gate alike, so no classification, field or memory query is made |
| DispatchProperties.StringClassifiedFirst | llvmDebugInfoC/src/scripts/konan_lldb.py:83-85 | a string instance is classified as a string whatever the array query answers |
| DispatchProperties.NonStringClassification | llvmDebugInfoC/src/scripts/konan_lldb.py:83-85 | a non-string is an array iff the array query parses as 1, an object iff it parses as anything else, and classification raises iff it does not parse, with the parse's exception |
| DispatchProperties.SummaryUsesClassifiedProvider | llvmDebugInfoC/src/scripts/konan_lldb.py:76-80 | past the gate, the summary is the `to_string` of a provider of exactly the classified kind for the value's address, or that provider's or the classification's exception |
| DispatchProperties.StringSummary | llvmDebugInfoC/src/scripts/konan_lldb.py:180-181 | a string's summary is the string provider's representation |
| DispatchProperties.ProxyGate | llvmDebugInfoC/src/scripts/konan_lldb.py:258-262 | the proxy raises the exception `int(…, 0)` raises, and holds no provider iff the gate turns the parsed number away |
| DecodingProperties.IntegerScalarDecodes | llvmDebugInfoC/src/scripts/konan_lldb.py:142-144 | an integer read moves the error object as one read would and gives the error marker or the in-range number whose encoding memory holds |
| DecodingProperties.IntegerFieldDecodes | llvmDebugInfoC/src/scripts/konan_lldb.py:115-117 | tags 3/4/5 read exactly 2/4/8 bytes; on success the value is the in-range signed number whose little-endian encoding memory holds; on failure it is "error: " and hex that reads back as the address |
| DecodingProperties.IntegerFieldRoundTrip | llvmDebugInfoC/src/scripts/konan_lldb.py:142-144 | a field whose memory holds the encoding of x displays as x and leaves the error object successful |
| DecodingProperties.CharFieldDecodes | llvmDebugInfoC/src/scripts/konan_lldb.py:114 | tag 2 reads one byte and shows it as a one-character string, or the error marker when unmapped |
| DecodingProperties.AddressOnlyTags | llvmDebugInfoC/src/scripts/konan_lldb.py:120 | tags 0 and 8 render the address alone, independent of memory and budget, leave the error object untouched, and the hex reads back as the address |
| DecodingProperties.NestedObjectGate | llvmDebugInfoC/src/scripts/konan_lldb.py:113 | tag 1 shows exactly what the summary hook returns or raises for the dereferenced field, with the error object untouched; in particular "null" on a failed gate, the raw value for another type, and `RecursionLimit` once the nesting budget is spent |
| DecodingProperties.UnknownTagRaises | llvmDebugInfoC/src/scripts/konan_lldb.py:140 | a tag above 9 raises `KeyError` before any read |
| ProviderProperties.UnnamedTagAbortsSnapshot | llvmDebugInfoC/src/scripts/konan_lldb.py:128 | a counted tag the name table lacks makes `update` raise `KeyError` naming the first such tag: every earlier counted tag is named |
| ProviderProperties.StringRepresentationCases | llvmDebugInfoC/src/scripts/konan_lldb.py:155-163 | the string provider shows the raw value when nothing was rendered, the buffer's text when it reads to its terminator within one byte less than the reported length, and the raw value when the buffer breaks first |
| ProviderProperties.StringProviderHasNoChildren | llvmDebugInfoC/src/scripts/konan_lldb.py:165-178 | a string provider has zero children, no child index or child, and `update` changes nothing |
| ProviderProperties.ObjectNamesStopAtFirstFailedRead | llvmDebugInfoC/src/scripts/konan_lldb.py:195-204 | if name read k is the first to fail, the names are those of fields 0..k; the provider is built iff k is the last field, and raises `IndexError` otherwise |
| ProviderProperties.ObjectProviderCounts | llvmDebugInfoC/src/scripts/konan_lldb.py:206-210 | a built object provider reports the raw field count and has children iff it is positive |
| ProviderProperties.DictOfLastWins | llvmDebugInfoC/src/scripts/konan_lldb.py:220 | in `dict(zip(keys, vals))` a key not repeated later maps to its own value |
| ProviderProperties.ObjectRendering | llvmDebugInfoC/src/scripts/konan_lldb.py:218-220 | a built object renders as a dict keyed by exactly its names, each unrepeated name mapped to its field's value; it fails only when a value conversion does |
| ProviderProperties.StickyFlag | llvmDebugInfoC/src/scripts/konan_lldb.py:230-231 | with a sticky error object, it ends failed iff some field's read failed |
| ProviderProperties.ClearingFlag | llvmDebugInfoC/src/scripts/konan_lldb.py:230-231 | with an error object each read clears, it ends failed iff the last memory-reading field's read failed |
| ProviderProperties.ArrayRaisesIffErrorFlag | llvmDebugInfoC/src/scripts/konan_lldb.py:229-232 | building an array raises `DebuggerException` iff the eager reads leave the error object failed, and otherwise keeps those values |
| ProviderProperties.StickyArrayRaisesOnAnyFailedRead | llvmDebugInfoC/src/scripts/konan_lldb.py:229-232 | with a sticky error object, building an array raises iff some element's read fails |
| ProviderProperties.ClearingArrayRaisesOnLastFailedRead | llvmDebugInfoC/src/scripts/konan_lldb.py:229-232 | with an error object each read clears, building an array raises iff the last memory-reading element's read fails |
| ProviderProperties.ArrayRendering | llvmDebugInfoC/src/scripts/konan_lldb.py:253-255 | an array renders as a list of one entry per counted element, equal to the eagerly read values for a built array |
| ProviderProperties.ArrayChildIndexCases | llvmDebugInfoC/src/scripts/konan_lldb.py:245-247 | the array provider's `get_child_index` answers `None` for a negative number, raises `AttributeError` for any other number and `ValueError` for a name that is not one; it never answers an index |
| ProviderProperties.ArrayChildIndexIgnoresSpace | llvmDebugInfoC/src/scripts/konan_lldb.py:246 | whitespace before or after the name does not change the array provider's answer |
| ProviderProperties.ArrayChildAtReadsAfresh | llvmDebugInfoC/src/scripts/konan_lldb.py:249-251 | the array provider's child is the element converted afresh, never `None` |
| ProviderProperties.RefreshTakesNewSnapshot | llvmDebugInfoC/src/scripts/konan_lldb.py:234-237 | `update` re-snapshots the same object from the current target: when it completes, the child count is the target's current count, the array values are emptied and the object child list is rebuilt; a failing snapshot makes it raise the same exception |
| ProviderProperties.CompletedRefreshForgetsPrior | llvmDebugInfoC/src/scripts/konan_lldb.py:195-204 | a completed `update` leaves nothing of the earlier state: two providers of the same kind for the same object end up identical |
| ProviderProperties.HalfUpdatedObject | llvmDebugInfoC/src/scripts/konan_lldb.py:124-129 | when the count parses but a counted tag has no name, `update` raises `KeyError` and leaves the new count and tags next to the old type names, addresses, names and child list |
| ProviderProperties.ProxyObjectChildren | llvmDebugInfoC/src/scripts/konan_lldb.py:263-264 | an object proxy holds one child request per counted field, naming that field, its type and its index |

## Left out

- Registration (`__lldb_init_module` and the `__FACTORY` table) is not modelled as a mutable
  table. It is a fixed choice over the three provider kinds (`Introspection.Construct`).
- Host commands and the host value objects from `CreateValueFromExpression` are left out. An
  object child is the request that would build it (`Introspection.ChildRequest`).
- The proxy's `__getattr__` forwarding is modelled only as the wrapped provider itself. Calling
  into a proxy the gate turned away (which recurses in `__getattr__`) is left out.
- Tags 6 and 7 are read with the right width. The IEEE-754 interpretation of those bytes is
  left out, so they are kept as raw bytes.
- Tag 9 is modelled as raising `struct.error` (`<?` over 4 bytes). It is unreachable anyway,
  because `update` rejects tag 9 first.
- `int(...)` strips ASCII whitespace and accepts an optional sign and ASCII digits. It does not
  model `_` separators between digits, Unicode whitespace or Unicode digits. The host prints none
  of them, but a child name passed to the array provider's `get_child_index` could hold them.
- Memory reads take the address as an unbounded integer. The host's conversion of a negative
  or over-wide address is left out.
- Text read from memory is one character per byte, which is exact for ASCII. Decoding multi-byte
  UTF-8 sequences into single characters is left out.
- Bytes.HostCString: reads byte by byte. The host reads in cache-line chunks, and whether a
  partly readable chunk returns its readable bytes is host behaviour that is left out.
- The host's error policy for a shared `SBError` is a parameter (`Host.ErrorPolicy`), not a
  fact. Both choices are proved about.
- Python's recursion limit on nested tag-1 fields is a `fuel` parameter. Running out raises.
  The actual limit is left out.
- The helper constructor's `is_string` query has no effect on a pure oracle, so it is left
  out. So is the dead `ptr is None` branch.
- Evaluation side effects, concurrency and the process resuming between queries are left
  out: a `Host.Target` is fixed for a whole decode.
- Introspection.DictOf: its contract names only the keys. The value kept for each key is
  stated separately by `ProviderProperties.DictOfLastWins`.
- Introspection.StringRepresentation: its contract only says which of two forms the result
  takes. The full case split is `ProviderProperties.StringRepresentationCases`.
- Introspection.Refresh: its contract gives the kind, the object and the snapshot. What each
  kind keeps on an exception is in `Introspection.ObjectUpdate` and `Introspection.ArrayUpdate`.
- Introspection.ReadValue: its contract only bounds the index and fixes the error object's next
  state. The per-tag results are the lemmas of `DecodingProperties`.
- Introspection.ReadValues: its contract gives the length and the error object's final state.
  What that state means under each host policy is `ProviderProperties.StickyFlag` and
  `ProviderProperties.ClearingFlag`.
- Introspection.ChildAt: its contract covers the object provider and the shape of the array
  provider's answer. The array element itself is `ProviderProperties.ArrayChildAtReadsAfresh`.
- Introspection.NewObjectProvider: its contract ties it to a complete object update. The
  names and counts are `ProviderProperties.ObjectNamesStopAtFirstFailedRead` and
  `ProviderProperties.ObjectProviderCounts`.
- Introspection.Summary: its contract covers the two early returns. What a built provider
  renders is `DispatchProperties.SummaryUsesClassifiedProvider`.
- Introspection.ToString: its contract gives the shape of each rendering. The values are
  `ProviderProperties.ObjectRendering` and `ProviderProperties.ArrayRendering`.
- Numerals.ParseDecimal: its contract gives the shape of accepted text only. What it reads is
  pinned by `Numerals.FormatDecimalRoundTrip` and `Numerals.SurroundingSpaceIgnored`.
- Numerals.ParseLiteral: its contract gives the shape of accepted text only. What it reads is
  pinned by `Numerals.PaddedHexRoundTrip` for the zero-padded pointer text the host prints (the
  form parsed at lines 129, 132 and 260 of konan_lldb.py), by `Numerals.FormatHexRoundTrip` for
  `{:#x}` text, and by `Numerals.SurroundingSpaceIgnored` for surrounding whitespace. Octal and
  binary literals, which the host never prints for a pointer, have no round-trip lemma.

=== FILE: bytes.dfy ===
/** The inspected process's memory as the script sees it: a partial map from address to byte,
    read either as exactly `n` bytes or as a bounded C string. */
module Bytes {
  import opened Faults

  newtype byte = x: int | 0 <= x < 256

  /** Readable memory of the stopped process; an address outside the map cannot be read. */
  type Memory = map<int, byte>

  /** Every address of `[addr, addr + n)` can be read. */
  predicate Readable(mem: Memory, addr: int, n: nat) {
    forall a :: addr <= a < addr + n ==> a in mem
  }

  /** Memory at `addr` holds exactly the bytes `bs`. */
  ghost predicate Stores(mem: Memory, addr: int, bs: seq<byte>) {
    forall a :: addr <= a < addr + |bs| ==> a in mem && mem[a] == bs[a - addr]
  }

  /** `ReadMemory(addr, n, error)`: exactly `n` bytes, or a failure when any of them is unreadable. */
  function ReadMemory(mem: Memory, addr: int, n: nat): (r: Option<seq<byte>>)
    ensures r.Some? <==> Readable(mem, addr, n)
    ensures r.Some? ==> |r.value| == n && forall k :: 0 <= k < n ==> r.value[k] == mem[addr + k]
    decreases n
  {
    if n == 0 then Some([])
    else if addr !in mem then None
    else
      match ReadMemory(mem, addr + 1, n - 1)
      case None => None
      case Some(rest) => Some([mem[addr]] + rest)
  }

  /** Reading back bytes that memory stores gives exactly those bytes. */
  lemma ReadStored(mem: Memory, addr: int, bs: seq<byte>)
    requires Stores(mem, addr, bs)
    ensures ReadMemory(mem, addr, |bs|) == Some(bs)
  {
    var r := ReadMemory(mem, addr, |bs|);
    assert r.Some?;
    forall k | 0 <= k < |bs| ensures r.value[k] == bs[k] {
      var a := addr + k;
      assert a in mem && mem[a] == bs[a - addr];
    }
    assert r.value == bs;
  }

  /** A C-string read: the bytes before the terminator, and whether the read met no unreadable byte. */
  datatype CString = CString(bytes: seq<byte>, ok: bool)

  /** What a successful read returns is what memory stores there. */
  lemma ReadIsStored(mem: Memory, addr: int, n: nat)
    requires Readable(mem, addr, n)
    ensures Stores(mem, addr, ReadMemory(mem, addr, n).value)
  {
    var bs := ReadMemory(mem, addr, n).value;
    forall a | addr <= a < addr + |bs| ensures a in mem && mem[a] == bs[a - addr] {
      assert bs[a - addr] == mem[addr + (a - addr)];
    }
  }

  /** A C-string read of at most `limit` bytes from `addr`, stopping before the first zero byte.
      The bytes read before an unreadable address are kept and `ok` is false. */
  function ReadCString(mem: Memory, addr: int, limit: nat): (r: CString)
    ensures |r.bytes| <= limit
    ensures forall a :: addr <= a < addr + |r.bytes| ==> a in mem && mem[a] == r.bytes[a - addr] && mem[a] != 0
    ensures r.ok ==> |r.bytes| == limit || (addr + |r.bytes| in mem && mem[addr + |r.bytes|] == 0)
    ensures !r.ok ==> |r.bytes| < limit && addr + |r.bytes| !in mem
    decreases limit
  {
    if limit == 0 then CString([], true)
    else if addr !in mem then CString([], false)
    else if mem[addr] == 0 then CString([], true)
    else
      var rest := ReadCString(mem, addr + 1, limit - 1);
      var bs := [mem[addr]] + rest.bytes;
      CString(bs, rest.ok)
  }

  /** `SBProcess.ReadCStringFromMemory(addr, size, error)`: `size` is the caller's buffer, which
      holds the terminator too, so at most `size - 1` bytes are read; a size of 0 reads nothing and
      reports success. */
  function HostCString(mem: Memory, addr: int, size: nat): (r: CString)
    ensures size == 0 ==> r.ok && r.bytes == []
    ensures size > 0 ==> |r.bytes| < size
  {
    if size == 0 then CString([], true) else ReadCString(mem, addr, size - 1)
  }

  /** `bs` is the C string at `addr` under a bound of `limit`: readable non-zero bytes, followed by
      a zero byte unless the bound is reached. */
  ghost predicate Terminated(mem: Memory, addr: int, limit: nat, bs: seq<byte>) {
    && |bs| <= limit
    && (forall a :: addr <= a < addr + |bs| ==> a in mem && mem[a] == bs[a - addr] && mem[a] != 0)
    && (|bs| == limit || (addr + |bs| in mem && mem[addr + |bs|] == 0))
  }

  /** Memory from `addr` becomes unreadable at offset `j`, before any zero byte and within `limit`. */
  ghost predicate BrokenAt(mem: Memory, addr: int, limit: nat, j: nat) {
    && j < limit
    && addr + j !in mem
    && forall a :: addr <= a < addr + j ==> a in mem && mem[a] != 0
  }

  /** A terminated C string reads back whole and without error. */
  lemma ReadTerminated(mem: Memory, addr: int, limit: nat, bs: seq<byte>)
    requires Terminated(mem, addr, limit, bs)
    ensures ReadCString(mem, addr, limit) == CString(bs, true)
  {
    var r := ReadCString(mem, addr, limit);
    assert |r.bytes| == |bs|;
    forall k | 0 <= k < |bs| ensures r.bytes[k] == bs[k] {
      var a := addr + k;
      assert mem[a] == bs[a - addr] == r.bytes[a - addr];
    }
    assert r.bytes == bs;
  }

  /** A C string that runs into unreadable memory before its terminator reads with an error. */
  lemma ReadBroken(mem: Memory, addr: int, limit: nat, j: nat)
    requires BrokenAt(mem, addr, limit, j)
    ensures !ReadCString(mem, addr, limit).ok
  {
    var r := ReadCString(mem, addr, limit);
    assert |r.bytes| == j;
  }

  /** The bytes a C-string read returns, as text: one character per byte, which is exact for ASCII;
      decoding multi-byte UTF-8 sequences is not modelled. */
  function AsText(bs: seq<byte>): (s: string)
    ensures |s| == |bs| && forall k :: 0 <= k < |bs| ==> s[k] as int == bs[k] as int
  {
    seq(|bs|, k requires 0 <= k < |bs| => bs[k] as int as char)
  }
}

=== FILE: decoding_properties.dfy ===
/** Properties of the type-tag conversion table: the integer tags read exactly their width and
    decode it as a little-endian two's-complement number, a failed read is a soft error marker
    naming the address, the address-only tags never touch memory, and the object-pointer tag
    re-enters the summary hook with its "null" gate. */
module DecodingProperties {
  import opened Faults
  import opened Bytes
  import opened Host
  import opened Introspection
  import LittleEndian
  import Numerals

  /** One integer read: the error object's next state, then either the error marker naming the
      address or the in-range signed number whose little-endian encoding memory holds. */
  lemma IntegerScalarDecodes(t: Target, tag: nat, a: int, failed: bool)
    requires 3 <= tag <= 5
    ensures var r := ReadScalar(t, tag, a, failed);
            var w := ReadWidth(tag);
            && r.Ok?
            && r.value.1 == AfterRead(t.policy, failed, !Readable(t.memory, a, w))
            && (r.value.1 ==> r.value.0 == Str("error: " + Numerals.FormatHex(a)))
            && (!r.value.1 ==> r.value.0.Int? &&
                               -LittleEndian.Half(w) <= r.value.0.i < LittleEndian.Half(w) &&
                               Stores(t.memory, a, LittleEndian.EncodeSigned(r.value.0.i, w)))
  {
    var w := ReadWidth(tag);
    if Readable(t.memory, a, w) {
      ReadIsStored(t.memory, a, w);
    }
  }

  /** Tags 3, 4 and 5 read exactly 2, 4 and 8 bytes. When the shared error object reports success
      the value is the signed number whose little-endian encoding is those bytes; otherwise it is
      "error: " followed by text that reads back as the field's address. */
  lemma IntegerFieldDecodes(t: Target, snap: Snapshot, i: nat, failed: bool, fuel: nat)
    requires i < |snap.tags| && i < |snap.addresses| && 3 <= snap.tags[i] <= 5
    ensures ReadWidth(snap.tags[i]) == if snap.tags[i] == 3 then 2 else if snap.tags[i] == 4 then 4 else 8
    ensures var r := ReadValue(t, snap, i, failed, fuel);
            var a := snap.addresses[i];
            var w := ReadWidth(snap.tags[i]);
            && r.Ok?
            && r.value.1 == AfterRead(t.policy, failed, !Readable(t.memory, a, w))
            && (r.value.1 ==> r.value.0 == Str("error: " + Numerals.FormatHex(a)) &&
                              Numerals.ParseLiteral(Numerals.FormatHex(a)) == Some(a))
            && (!r.value.1 ==> r.value.0.Int? &&
                               -LittleEndian.Half(w) <= r.value.0.i < LittleEndian.Half(w) &&
                               Stores(t.memory, a, LittleEndian.EncodeSigned(r.value.0.i, w)))
  {
    var a := snap.addresses[i];
    Numerals.FormatHexRoundTrip(a);
    assert ReadValue(t, snap, i, failed, fuel) == ReadScalar(t, snap.tags[i], a, failed);
    IntegerScalarDecodes(t, snap.tags[i], a, failed);
  }

  /** A field whose memory holds the encoding of `x` displays as `x`: for any memory that stores
      the little-endian encoding of `x`, at each integer width. */
  lemma IntegerFieldRoundTrip(t: Target, snap: Snapshot, i: nat, fuel: nat, x: int)
    requires i < |snap.tags| && i < |snap.addresses| && 3 <= snap.tags[i] <= 5
    requires -LittleEndian.Half(ReadWidth(snap.tags[i])) <= x < LittleEndian.Half(ReadWidth(snap.tags[i]))
    requires Stores(t.memory, snap.addresses[i], LittleEndian.EncodeSigned(x, ReadWidth(snap.tags[i])))
    ensures ReadValue(t, snap, i, false, fuel) == Ok((Int(x), false))
  {
    var a := snap.addresses[i];
    var w := ReadWidth(snap.tags[i]);
    var encoded := LittleEndian.EncodeSigned(x, w);
    ReadStored(t.memory, a, encoded);
    var bytes := ReadMemory(t.memory, a, w);
    assert bytes.value == encoded;
    LittleEndian.SignedRoundTrip(x, w);
  }

  /** Tag 2 reads exactly one byte and, on success, displays that byte as a one-character string. */
  lemma CharFieldDecodes(t: Target, snap: Snapshot, i: nat, failed: bool, fuel: nat)
    requires i < |snap.tags| && i < |snap.addresses| && snap.tags[i] == 2
    ensures var r := ReadValue(t, snap, i, failed, fuel);
            var a := snap.addresses[i];
            && r.Ok?
            && r.value.1 == AfterRead(t.policy, failed, a !in t.memory)
            && (!r.value.1 ==> a in t.memory && r.value.0 == Char(t.memory[a]))
            && (r.value.1 ==> r.value.0 == Str(ErrorMarker(a)))
  {
    var a := snap.addresses[i];
    assert Readable(t.memory, a, 1) <==> a in t.memory;
  }

  /** Tags 0 and 8 render the address alone, whatever the memory, the error object or the budget,
      and leave the error object as it was; the rendered hex reads back as the address. */
  lemma AddressOnlyTags(t: Target, t': Target, snap: Snapshot, i: nat, failed: bool, fuel: nat, fuel': nat)
    requires i < |snap.tags| && i < |snap.addresses| && (snap.tags[i] == 0 || snap.tags[i] == 8)
    ensures var prefix := if snap.tags[i] == 0 then "<invalid>" else "(void *)";
            ReadValue(t, snap, i, failed, fuel) == Ok((Str(prefix + Numerals.FormatHex(snap.addresses[i])), failed))
    ensures ReadValue(t', snap, i, false, fuel').Ok? &&
            ReadValue(t', snap, i, false, fuel').value.0 == ReadValue(t, snap, i, failed, fuel).value.0
    ensures Numerals.ParseLiteral(Numerals.FormatHex(snap.addresses[i])) == Some(snap.addresses[i])
  {
    Numerals.FormatHexRoundTrip(snap.addresses[i]);
  }

  /** Tag 1 applies the summary hook to the dereferenced field and shows whatever it returns or
      raises: in particular a nested object failing the self-reference check displays as "null",
      a value of another static type as its raw value, and nesting beyond the budget raises. The
      error object is untouched. */
  lemma NestedObjectGate(t: Target, snap: Snapshot, i: nat, failed: bool, fuel: nat)
    requires i < |snap.tags| && i < |snap.addresses| && snap.tags[i] == 1
    ensures fuel == 0 ==> ReadValue(t, snap, i, failed, fuel) == Raise(RecursionLimit)
    ensures fuel > 0 ==>
              var s := Summary(t, t.eval(Deref(snap.addresses[i])), fuel - 1);
              (s.Ok? ==> ReadValue(t, snap, i, failed, fuel) == Ok((s.value, failed))) &&
              (s.Raise? ==> ReadValue(t, snap, i, failed, fuel) == Raise(s.fault))
    ensures var d := t.eval(Deref(snap.addresses[i]));
            fuel > 0 && TypeString(d) == ObjHeaderType && !TypeInfoValid(t, SummaryOperand(d)) ==>
              ReadValue(t, snap, i, failed, fuel) == Ok((Str(NullMarker), failed))
    ensures var d := t.eval(Deref(snap.addresses[i]));
            fuel > 0 && TypeString(d) != ObjHeaderType ==>
              ReadValue(t, snap, i, failed, fuel) == Ok((Fallback(d), failed))
  {
  }

  /** A tag outside the conversion table raises `KeyError` before anything is read. */
  lemma UnknownTagRaises(t: Target, snap: Snapshot, i: nat, failed: bool, fuel: nat)
    requires i < |snap.tags| && i < |snap.addresses| && snap.tags[i] > 9
    ensures ReadValue(t, snap, i, failed, fuel) == Raise(UnknownTag(snap.tags[i]))
  {
  }
}

=== FILE: dispatch_properties.dfy ===
/** Properties of the summary hook and `select_provider`: values of other static types pass
    through untouched, a failed self-reference check yields "null" without a single classification
    query, and classification asks the string question first, the array question second. */
module DispatchProperties {
  import opened Faults
  import opened Host
  import opened Introspection

  /** Two targets that answer the self-reference check for `v` alike. */
  ghost predicate AgreeOnGate(t: Target, t': Target, v: SBValue) {
    t'.eval(SelfReference(SummaryOperand(v))) == t.eval(SelfReference(SummaryOperand(v)))
  }

  /** A value whose static type is not `struct ObjHeader *` summarises as its own raw value,
      whatever the target answers to any query. */
  lemma ForeignTypePassesThrough(t: Target, v: SBValue, fuel: nat)
    requires TypeString(v) != ObjHeaderType
    ensures Summary(t, v, fuel) == Ok(Fallback(v))
    ensures GetValue(v).None? ==> Summary(t, v, fuel) == Ok(NoValue)
    ensures GetValue(v).Some? ==> Summary(t, v, fuel) == Ok(Str(GetValue(v).value))
  {
  }

  /** When the self-reference check fails the summary is "null", and it stays "null" on any
      target that answers that one check alike, however it answers the string, array, field or
      memory queries: none of them is asked. */
  lemma NullGateAsksNothingElse(t: Target, t': Target, v: SBValue, fuel: nat, fuel': nat)
    requires TypeString(v) == ObjHeaderType && !TypeInfoValid(t, SummaryOperand(v))
    requires AgreeOnGate(t, t', v)
    ensures Summary(t, v, fuel) == Ok(Str(NullMarker))
    ensures Summary(t', v, fuel') == Ok(Str(NullMarker))
  {
    assert !TypeInfoValid(t', SummaryOperand(v));
  }

  /** The string question decides first: a string instance is a string whatever the array query
      would answer, even if that answer is not a number. */
  lemma StringClassifiedFirst(t: Target, t': Target, obj: nat)
    requires IsString(t, obj)
    requires t'.eval(IsStringInstance(obj)) == t.eval(IsStringInstance(obj))
    ensures Classify(t, obj) == Ok(StringKind)
    ensures Classify(t', obj) == Ok(StringKind)
  {
  }

  /** A non-string is an array exactly when the array query parses as 1, an object when it parses
      as anything else, and classification raises the parse's own exception when it does not parse. */
  lemma NonStringClassification(t: Target, obj: nat)
    requires !IsString(t, obj)
    ensures Classify(t, obj) == Ok(ArrayKind) <==> IntOf(t.eval(IsArray(obj))) == Ok(1)
    ensures Classify(t, obj) == Ok(ObjectKind) <==>
              IntOf(t.eval(IsArray(obj))).Ok? && IntOf(t.eval(IsArray(obj))).value != 1
    ensures Classify(t, obj).Raise? <==> IntOf(t.eval(IsArray(obj))).Raise?
    ensures Classify(t, obj).Raise? ==> Classify(t, obj).fault == IntOf(t.eval(IsArray(obj))).fault
  {
  }

  /** Past the gate, the summary is the `to_string` of a provider of exactly the classified kind,
      built for the value's address. */
  lemma SummaryUsesClassifiedProvider(t: Target, v: SBValue, fuel: nat)
    requires TypeString(v) == ObjHeaderType && TypeInfoValid(t, SummaryOperand(v))
    ensures Classify(t, AsUnsigned(v)).Raise? ==> Summary(t, v, fuel) == Raise(Classify(t, AsUnsigned(v)).fault)
    ensures Classify(t, AsUnsigned(v)).Ok? ==>
              var kind := Classify(t, AsUnsigned(v)).value;
              var p := Construct(t, v, kind, fuel);
              && (p.Raise? ==> Summary(t, v, fuel) == Raise(p.fault))
              && (p.Ok? ==> Summary(t, v, fuel) == ToString(t, p.value, fuel) &&
                            (kind == StringKind <==> p.value.StringProvider?) &&
                            (kind == ArrayKind <==> p.value.ArrayProvider?) &&
                            (kind == ObjectKind <==> p.value.ObjectProvider?) &&
                            (!p.value.StringProvider? ==> p.value.ptr == AsUnsigned(v)))
  {
  }

  /** A string summarises as the text the runtime rendered, or as the raw value when it rendered
      nothing. */
  lemma StringSummary(t: Target, v: SBValue, fuel: nat)
    requires TypeString(v) == ObjHeaderType && TypeInfoValid(t, SummaryOperand(v))
    requires IsString(t, AsUnsigned(v))
    ensures Summary(t, v, fuel) == Ok(StringRepresentation(t, v))
  {
    var p := StringProvider(StringRepresentation(t, v));
    assert SelectProvider(t, v, fuel) == Ok(p);
    assert ToString(t, p, fuel) == Ok(StringRepresentation(t, v));
  }

  /** The proxy provider parses the value's text with base prefixes, raises when it cannot, and
      holds no provider when the gate turns the parsed number away. */
  lemma ProxyGate(t: Target, v: SBValue, fuel: nat)
    ensures LiteralOf(v).Raise? ==> ProxyProvider(t, v, fuel) == Raise(LiteralOf(v).fault)
    ensures LiteralOf(v).Ok? && !TypeInfoValid(t, IntOperand(LiteralOf(v).value)) ==>
              ProxyProvider(t, v, fuel) == Ok(None)
    ensures ProxyProvider(t, v, fuel) == Ok(None) ==>
              LiteralOf(v).Ok? && !TypeInfoValid(t, IntOperand(LiteralOf(v).value))
  {
  }
}

=== FILE: faults.dfy ===
/** Python-level outcomes of the debugger script: a value, or the exception that aborted the
    current operation. Also Python's list comprehension over an index range, which evaluates
    its element expression in order and stops at the first exception. */
module Faults {

  datatype Option<+T> = None | Some(value: T)

  /** The exceptions the script can raise. */
  datatype Fault =
    | NotAnInteger        // ValueError from int(...) of text that is not an integer literal
    | NotAString          // TypeError from int(None): the value has no text
    | UnknownTag(tag: nat) // KeyError from the type-name table or the conversion table
    | IndexOutOfRange     // IndexError
    | NameNotFound        // ValueError from list.index
    | MissingAttribute    // AttributeError
    | UnpackSize          // struct.error: buffer length does not match the format
    | ArrayReadFailed     // DebuggerException
    | RecursionLimit      // RuntimeError: maximum recursion depth exceeded

  datatype Result<+T> = Ok(value: T) | Raise(fault: Fault) {

    predicate IsFailure() {
      Raise?
    }

    function PropagateFailure<U>(): Result<U>
      requires Raise?
    {
      Raise(fault)
    }

    function Extract(): T
      requires Ok?
    {
      value
    }
  }

  /** `[f(i) for i in range(lo, hi)]`: elements in index order; the first exception ends it. */
  function ListOf<T(==)>(f: nat -> Result<T>, lo: nat, hi: nat): (r: Result<seq<T>>)
    requires lo <= hi
    ensures r.Ok? <==> forall i :: lo <= i < hi ==> f(i).Ok?
    ensures r.Ok? ==> |r.value| == hi - lo
    ensures r.Ok? ==> forall k :: 0 <= k < |r.value| ==> f(lo + k) == Ok(r.value[k])
    ensures r.Raise? ==>
              (exists i :: lo <= i < hi && f(i) == Raise(r.fault) && forall j :: lo <= j < i ==> f(j).Ok?)
    decreases hi - lo
  {
    if lo == hi then Ok([])
    else
      match f(lo)
      case Raise(e) =>
        assert f(lo) == Raise(e);
        Raise(e)
      case Ok(x) =>
        match ListOf(f, lo + 1, hi)
        case Raise(e) => Raise(e)
        case Ok(xs) => Ok([x] + xs)
  }

  /** `[x for i in range(lo, hi) if error.Success()]` where `read(i)` yields the element `x` and
      whether the shared error object still reports success after it. The filter is tested before
      each read, so the element of the first failing read is kept and no later index is read.
      (Only a successful error object is ever read into, so the host's policy for clearing a
      failed one does not matter here.) */
  function ListWhileOk<T>(read: nat -> Result<(T, bool)>, lo: nat, hi: nat, failed: bool): (r: Result<seq<T>>)
    requires lo <= hi
    ensures failed ==> r == Ok([])
    ensures r.Ok? ==> |r.value| <= hi - lo
    decreases hi - lo
  {
    if lo == hi then Ok([])
    else if failed then ListWhileOk(read, lo + 1, hi, failed)
    else
      var x :- read(lo);
      var rest :- ListWhileOk(read, lo + 1, hi, !x.1);
      Ok([x.0] + rest)
  }

  /** `xs` holds the elements of reads `lo, lo + 1, …` up to and including the first failing read,
      or of all reads when none fails. */
  ghost predicate ReadPrefix<T>(read: nat -> Result<(T, bool)>, lo: nat, hi: nat, xs: seq<T>) {
    && |xs| <= hi - lo
    && (lo < hi ==> |xs| > 0)
    && (forall i :: lo <= i < lo + |xs| ==> read(i).Ok? && read(i).value.0 == xs[i - lo])
    && (forall i :: lo <= i < lo + |xs| - 1 ==> read(i).Ok? && read(i).value.1)
    && (|xs| < hi - lo ==> |xs| > 0 && read(lo + |xs| - 1).Ok? && !read(lo + |xs| - 1).value.1)
  }

  lemma {:induction false} ListWhileOkPrefix<T>(read: nat -> Result<(T, bool)>, lo: nat, hi: nat)
    requires lo <= hi
    ensures ListWhileOk(read, lo, hi, false).Ok? ==> ReadPrefix(read, lo, hi, ListWhileOk(read, lo, hi, false).value)
    decreases hi - lo
  {
    if lo < hi && read(lo).Ok? {
      var x := read(lo).value;
      var r := ListWhileOk(read, lo, hi, false);
      var rr := ListWhileOk(read, lo + 1, hi, !x.1);
      if x.1 {
        ListWhileOkPrefix(read, lo + 1, hi);
        if rr.Ok? {
          assert r.value == [x.0] + rr.value;
          forall i | lo < i < lo + |r.value|
            ensures read(i).Ok? && read(i).value.0 == r.value[i - lo]
          {
            assert r.value[i - lo] == rr.value[i - (lo + 1)];
          }
        }
      } else {
        assert rr == Ok([]);
      }
    }
  }

  /** When read `k` is the first to leave the error object failed, the list holds the elements of
      reads `lo..k`, that of read `k` included, and nothing after. */
  lemma {:induction false} ListWhileOkStopsAt<T>(read: nat -> Result<(T, bool)>, lo: nat, hi: nat, k: nat)
    requires lo <= k < hi
    requires forall i :: lo <= i < k ==> read(i).Ok? && read(i).value.1
    requires read(k).Ok? && !read(k).value.1
    ensures var r := ListWhileOk(read, lo, hi, false);
            && r.Ok? && |r.value| == k - lo + 1
            && forall i :: lo <= i <= k ==> r.value[i - lo] == read(i).value.0
    decreases k - lo
  {
    var r := ListWhileOk(read, lo, hi, false);
    var x := read(lo).value;
    var rr := ListWhileOk(read, lo + 1, hi, !x.1);
    if lo == k {
      assert rr == Ok([]);
    } else {
      ListWhileOkStopsAt(read, lo + 1, hi, k);
      assert r.value == [x.0] + rr.value;
      forall i | lo < i <= k ensures r.value[i - lo] == read(i).value.0 {
        assert r.value[i - lo] == rr.value[i - (lo + 1)];
      }
    }
  }

  /** The list raises exactly when some read raises before any read has failed, and then with that
      read's exception. */
  lemma {:induction false} ListWhileOkRaises<T>(read: nat -> Result<(T, bool)>, lo: nat, hi: nat)
    requires lo <= hi
    ensures ListWhileOk(read, lo, hi, false).Raise? <==>
              exists i :: lo <= i < hi && read(i).Raise? && forall j :: lo <= j < i ==> read(j).Ok? && read(j).value.1
    ensures ListWhileOk(read, lo, hi, false).Raise? ==>
              exists i :: lo <= i < hi && read(i) == Raise(ListWhileOk(read, lo, hi, false).fault) &&
                          forall j :: lo <= j < i ==> read(j).Ok? && read(j).value.1
    decreases hi - lo
  {
    if lo < hi {
      match read(lo)
      case Raise(e) =>
        assert read(lo) == Raise(ListWhileOk(read, lo, hi, false).fault);
      case Ok(x) =>
        if x.1 {
          ListWhileOkRaises(read, lo + 1, hi);
        } else {
          assert ListWhileOk(read, lo + 1, hi, true) == Ok([]);
          forall i | lo <= i < hi && read(i).Raise?
            ensures !(forall j :: lo <= j < i ==> read(j).Ok? && read(j).value.1)
          {
            assert i != lo;
            assert !read(lo).value.1;
          }
        }
    }
  }
}

=== FILE: host.dfy ===
/** The debugger host as the script uses it, reduced to a pure query oracle: every expression the
    script asks the selected target to evaluate, the value the host returns for it, the stopped
    process's memory, and the shared error object memory reads report into. */
module Host {
  import opened Faults
  import opened Bytes
  import Numerals

  /** An evaluation result (an `SBValue`): invalid, or a value of some static type with an optional
      textual rendering (`GetValue()`) and an optional scalar (what `GetValueAsUnsigned()` reads). */
  datatype SBValue =
    | Invalid
    | Valid(typeName: string, text: Option<string>, scalar: Option<int>)

  /** The operand of the type-info self-reference check: the summary hook splices in the value's
      text (`None` prints as "None"), the proxy provider a number it parsed from that text. */
  datatype Operand = TextOperand(s: string) | IntOperand(n: int)

  /** The expressions the script evaluates. Object arguments are the numeric address that
      `((struct ObjHeader *) 0x…)` names; hex formatting is injective, so the number identifies the
      expression text. */
  datatype Query =
    | SelfReference(operand: Operand)     // **(void ***)X == ***(void****)X
    | IsStringInstance(obj: nat)           // (bool)IsInstance(obj, theStringTypeInfo)
    | IsArray(obj: nat)                    // (int)Konan_DebugIsArray(obj)
    | FieldCount(obj: nat)                 // (int)Konan_DebugGetFieldCount(obj)
    | FieldType(obj: nat, index: nat)      // (int)Konan_DebugGetFieldType(obj, index)
    | FieldAddress(obj: nat, index: nat)   // (void *)Konan_DebugGetFieldAddress(obj, index)
    | FieldName(obj: nat, index: nat)      // (const char *)Konan_DebugGetFieldName(obj, (int)index)
    | RenderToBuffer(obj: nat)             // (int)Konan_DebugObjectToUtf8Array(obj, buffer, size)
    | BufferAddress                        // (char *)Konan_DebugBuffer()
    | Deref(address: int)                  // (*(struct ObjHeader **)address)

  /** Whether a successful memory read resets an error object that an earlier read set. The script
      shares one error object across several reads and relies on the host's choice. */
  datatype ErrorPolicy = Sticky | ClearedByEachRead

  /** The selected target, fixed for the duration of one decode. */
  datatype Target = Target(eval: Query -> SBValue, memory: Memory, policy: ErrorPolicy)

  const Word: int := 0x1_0000_0000_0000_0000

  /** `GetValue()`: the value's text; an invalid value has none. */
  function GetValue(v: SBValue): Option<string> {
    if v.Valid? then v.text else None
  }

  /** `str(v.type)`: an invalid value has no type, rendered as the empty string. */
  function TypeString(v: SBValue): string {
    if v.Valid? then v.typeName else ""
  }

  /** `GetValueAsUnsigned()`: the scalar read as a 64-bit unsigned number; 0 when there is none. */
  function AsUnsigned(v: SBValue): (u: nat)
    ensures u < Word
    ensures v.Valid? && v.scalar.Some? && 0 <= v.scalar.value < Word ==> u == v.scalar.value
    ensures v.Valid? && v.scalar.Some? && -Word <= v.scalar.value < 0 ==> u == v.scalar.value + Word
    ensures !v.Valid? || v.scalar.None? ==> u == 0
  {
    if v.Valid? && v.scalar.Some? then v.scalar.value % Word else 0
  }

  /** `int(v.GetValue())`: a `TypeError` when the value has no text, a `ValueError` when the
      text is not a decimal integer. */
  function IntOf(v: SBValue): (r: Result<int>)
    ensures r.Ok? <==> GetValue(v).Some? && Numerals.ParseDecimal(GetValue(v).value).Some?
    ensures r.Ok? ==> Numerals.ParseDecimal(GetValue(v).value) == Some(r.value)
    ensures r == Raise(NotAString) <==> GetValue(v).None?
    ensures r.Raise? ==> r.fault == NotAString || r.fault == NotAnInteger
  {
    match GetValue(v)
    case None => Raise(NotAString)
    case Some(s) =>
      match Numerals.ParseDecimal(s)
      case None => Raise(NotAnInteger)
      case Some(n) => Ok(n)
  }

  /** `int(v.GetValue(), 0)`: a `TypeError` when the value has no text, a `ValueError` when the
      text is not a Python integer literal. */
  function LiteralOf(v: SBValue): (r: Result<int>)
    ensures r.Ok? <==> GetValue(v).Some? && Numerals.ParseLiteral(GetValue(v).value).Some?
    ensures r.Ok? ==> Numerals.ParseLiteral(GetValue(v).value) == Some(r.value)
    ensures r == Raise(NotAString) <==> GetValue(v).None?
    ensures r.Raise? ==> r.fault == NotAString || r.fault == NotAnInteger
  {
    match GetValue(v)
    case None => Raise(NotAString)
    case Some(s) =>
      match Numerals.ParseLiteral(s)
      case None => Raise(NotAnInteger)
      case Some(n) => Ok(n)
  }

  /** A number the host prints as `(int)` text reads back through `int(...)` unchanged. */
  lemma IntOfPrinted(typeName: string, n: int, scalar: Option<int>)
    ensures IntOf(Valid(typeName, Some(Numerals.FormatDecimal(n)), scalar)) == Ok(n)
  {
    Numerals.FormatDecimalRoundTrip(n);
  }

  /** An address the script formats with `{:#x}` reads back through `int(..., 0)` unchanged. */
  lemma LiteralOfPrinted(typeName: string, n: int, scalar: Option<int>)
    ensures LiteralOf(Valid(typeName, Some(Numerals.FormatHex(n)), scalar)) == Ok(n)
  {
    Numerals.FormatHexRoundTrip(n);
  }

  /** A `(void *)` or `(const char *)` result, whose text the host zero-pads to the pointer width,
      reads back through `int(..., 0)` as the address it holds. */
  lemma LiteralOfPointer(typeName: string, zeros: string, address: nat, scalar: Option<int>)
    requires Numerals.AllZeros(zeros)
    ensures LiteralOf(Valid(typeName, Some("0x" + zeros + Numerals.Digits(address, 16)), scalar)) == Ok(address)
  {
    Numerals.PaddedHexRoundTrip(zeros, address);
  }

  /** The state of a shared error object after one more memory read; `true` means failed. */
  function AfterRead(policy: ErrorPolicy, failedBefore: bool, readFailed: bool): (failed: bool)
    ensures readFailed ==> failed
    ensures failedBefore && policy.Sticky? ==> failed
    ensures !readFailed && (policy.ClearedByEachRead? || !failedBefore) ==> !failed
  {
    match policy
    case Sticky => failedBefore || readFailed
    case ClearedByEachRead => readFailed
  }
}

=== FILE: introspection.dfy ===
/** The runtime object-introspection engine of the Kotlin/Native LLDB script: the summary hook
    with its self-reference gate, classification into string, array or object, the field snapshot
    `update` takes, the type-tag conversion table, and the three synthetic providers. */
module Introspection {
  import opened Faults
  import opened Bytes
  import opened Host
  import LittleEndian
  import Numerals

  const NullMarker: string := "null"
  const ObjHeaderType: string := "struct ObjHeader *"

  /** Bound on a field-name read. */
  const NameLimit: nat := 0x1000

  /** What `to_string` and the conversion table hand back to the host. */
  datatype Display =
    | Str(s: string)                       // a Python str
    | NoValue                              // None
    | Int(i: int)                          // an unpacked integer field
    | Char(b: byte)                        // the one-byte string `<c` unpacks
    | RawFloat(bytes: seq<byte>)           // a float or double field; the bytes are not interpreted
    | Dict(entries: map<string, Display>)  // an object's rendering
    | List(items: seq<Display>)            // an array's rendering

  /** `valobj.GetValue()` as the script returns it. */
  function Fallback(v: SBValue): Display {
    match GetValue(v)
    case Some(s) => Str(s)
    case None => NoValue
  }

  /** The length of `range(count)`. */
  function Len(count: int): nat {
    if count < 0 then 0 else count
  }

  /* ---------------- Dispatch gate and classification ---------------- */

  /** `check_type_info`: the self-reference expression evaluated to a valid value whose text is "true".
      The ensures records that the `IsValid()` test adds nothing to the text comparison: an invalid
      value has no text, so the gate is the text check alone. */
  predicate TypeInfoValid(t: Target, operand: Operand)
    ensures TypeInfoValid(t, operand) <==> GetValue(t.eval(SelfReference(operand))) == Some("true")
  {
    var r := t.eval(SelfReference(operand));
    r.Valid? && r.text == Some("true")
  }

  /** The summary hook passes the value's text to the gate; `None` formats as "None". */
  function SummaryOperand(v: SBValue): Operand {
    match GetValue(v)
    case Some(s) => TextOperand(s)
    case None => TextOperand("None")
  }

  /** The factory keys: one provider kind per category. */
  datatype Kind = StringKind | ArrayKind | ObjectKind

  /** `is_string`: the instance check printed exactly "true". */
  predicate IsString(t: Target, obj: nat) {
    GetValue(t.eval(IsStringInstance(obj))) == Some("true")
  }

  /** `select_provider`'s test: string first, then `int(is_array) == 1`, otherwise object. */
  function Classify(t: Target, obj: nat): (r: Result<Kind>)
    ensures IsString(t, obj) ==> r == Ok(StringKind)
    ensures r.Raise? ==>
              !IsString(t, obj) && IntOf(t.eval(IsArray(obj))).Raise? && r.fault == IntOf(t.eval(IsArray(obj))).fault
    ensures r == Ok(ArrayKind) ==> IntOf(t.eval(IsArray(obj))) == Ok(1)
  {
    if IsString(t, obj) then Ok(StringKind)
    else
      var n :- IntOf(t.eval(IsArray(obj)));
      Ok(if n == 1 then ArrayKind else ObjectKind)
  }

  /* ---------------- Field enumeration ---------------- */

  /** `_TYPE_NAMES`: the debugger type name of each tag the table knows. */
  function TypeName(tag: nat): (r: Option<string>)
    ensures r.Some? <==> tag <= 8
    ensures tag == 1 ==> r == Some(ObjHeaderType)
  {
    match tag
    case 0 => Some("invalid")
    case 1 => Some(ObjHeaderType)
    case 2 => Some("char")
    case 3 => Some("short")
    case 4 => Some("int")
    case 5 => Some("long")
    case 6 => Some("float")
    case 7 => Some("double")
    case 8 => Some("void *")
    case _ => None
  }

  /** `_TYPE_NAMES[tag]`, raising `KeyError` for a tag the table does not hold. */
  function LookupTypeName(tag: nat): Result<string> {
    match TypeName(tag)
    case Some(name) => Ok(name)
    case None => Raise(UnknownTag(tag))
  }

  /** What `update` records: the raw field count and three lists over `range(count)`. */
  datatype Snapshot = Snapshot(count: int, tags: seq<nat>, typeNames: seq<string>, addresses: seq<int>)

  /** The lists have one entry per field and each type name is the table's name for its tag. */
  ghost predicate Aligned(snap: Snapshot) {
    && |snap.tags| == Len(snap.count)
    && |snap.typeNames| == Len(snap.count)
    && |snap.addresses| == Len(snap.count)
    && forall i :: 0 <= i < |snap.tags| ==> TypeName(snap.tags[i]) == Some(snap.typeNames[i])
  }

  /** `GetValueAsUnsigned()` of field `i`'s type query. */
  function RawTag(t: Target, obj: nat, i: nat): nat {
    AsUnsigned(t.eval(FieldType(obj, i)))
  }

  /** `int(GetValue(), 0)` of field `i`'s address query. */
  function FieldAddressOf(t: Target, obj: nat, i: nat): Result<int> {
    LiteralOf(t.eval(FieldAddress(obj, i)))
  }

  /** `KonanHelperProvider.update`: count, tags, type names (where an unknown tag aborts), addresses. */
  function TakeSnapshot(t: Target, obj: nat): (r: Result<Snapshot>)
    ensures IntOf(t.eval(FieldCount(obj))).Raise? ==> r == Raise(IntOf(t.eval(FieldCount(obj))).fault)
    ensures r.Ok? ==> Aligned(r.value) && IntOf(t.eval(FieldCount(obj))) == Ok(r.value.count)
    ensures r.Ok? ==> forall i :: 0 <= i < |r.value.tags| ==>
                        r.value.tags[i] == RawTag(t, obj, i) && FieldAddressOf(t, obj, i) == Ok(r.value.addresses[i])
    ensures IntOf(t.eval(FieldCount(obj))).Ok? ==>
              var n := Len(IntOf(t.eval(FieldCount(obj))).value);
              (r.Ok? <==> (forall i :: 0 <= i < n ==> RawTag(t, obj, i) <= 8) &&
                          (forall i :: 0 <= i < n ==> FieldAddressOf(t, obj, i).Ok?))
  {
    var count :- IntOf(t.eval(FieldCount(obj)));
    var tags := seq(Len(count), i requires 0 <= i => RawTag(t, obj, i));
    var names :- ListOf((i: nat) => LookupTypeName(RawTag(t, obj, i)), 0, Len(count));
    var addresses :- ListOf((i: nat) => FieldAddressOf(t, obj, i), 0, Len(count));
    Ok(Snapshot(count, tags, names, addresses))
  }

  /** The fields `KonanHelperProvider.__init__` sets before any `update`: no fields, empty lists. */
  const Unset: Snapshot := Snapshot(0, [], [], [])

  /** `KonanHelperProvider.update` on a provider that already holds `prior`. Each attribute is
      assigned only once its list is complete, so an exception leaves the attributes before the
      failing step new and the rest as they were; the second component is that exception. */
  function SnapshotUpdate(t: Target, obj: nat, prior: Snapshot): (r: (Snapshot, Option<Fault>))
    ensures r.1.None? <==> TakeSnapshot(t, obj).Ok?
    ensures r.1.None? ==> TakeSnapshot(t, obj) == Ok(r.0)
    ensures r.1.Some? ==> TakeSnapshot(t, obj) == Raise(r.1.value) && r.0.addresses == prior.addresses
    ensures IntOf(t.eval(FieldCount(obj))).Raise? ==> r.0 == prior
    ensures IntOf(t.eval(FieldCount(obj))).Ok? ==>
              r.0.count == IntOf(t.eval(FieldCount(obj))).value && |r.0.tags| == Len(r.0.count) &&
              forall i :: 0 <= i < |r.0.tags| ==> r.0.tags[i] == RawTag(t, obj, i)
    ensures r.0.typeNames == prior.typeNames ||
              (|r.0.typeNames| == |r.0.tags| &&
               forall i :: 0 <= i < |r.0.tags| ==> TypeName(r.0.tags[i]) == Some(r.0.typeNames[i]))
  {
    match IntOf(t.eval(FieldCount(obj)))
    case Raise(e) => (prior, Some(e))
    case Ok(count) =>
      var tags := seq(Len(count), i requires 0 <= i => RawTag(t, obj, i));
      match ListOf((i: nat) => LookupTypeName(RawTag(t, obj, i)), 0, Len(count))
      case Raise(e) => (prior.(count := count, tags := tags), Some(e))
      case Ok(names) =>
        match ListOf((i: nat) => FieldAddressOf(t, obj, i), 0, Len(count))
        case Raise(e) => (prior.(count := count, tags := tags, typeNames := names), Some(e))
        case Ok(addresses) => (Snapshot(count, tags, names, addresses), None)
  }

  /* ---------------- Object field names ---------------- */

  /** `_read_string` of field `i`'s name: the name pointer parsed from its text, then a bounded C-string read. */
  function NameAt(t: Target, obj: nat, i: nat): (r: Result<CString>)
    ensures r.Raise? <==> LiteralOf(t.eval(FieldName(obj, i))).Raise?
    ensures r.Raise? ==> r.fault == LiteralOf(t.eval(FieldName(obj, i))).fault
    ensures r.Ok? ==> |r.value.bytes| < NameLimit &&
                      var address := LiteralOf(t.eval(FieldName(obj, i))).value;
                      forall a :: address <= a < address + |r.value.bytes| ==>
                        a in t.memory && t.memory[a] == r.value.bytes[a - address] && t.memory[a] != 0
  {
    var address :- LiteralOf(t.eval(FieldName(obj, i)));
    Ok(HostCString(t.memory, address, NameLimit))
  }

  /** One name read for the comprehension: the name's text and whether the error object the read
      reported into still says success. */
  function NameRead(t: Target, obj: nat): nat -> Result<(string, bool)> {
    (i: nat) =>
      match NameAt(t, obj, i)
      case Raise(e) => Raise(e)
      case Ok(cs) => Ok((AsText(cs.bytes), cs.ok))
  }

  /** The object provider's `_children`: `[_read_string(…, i, error) for i in range(n) if error.Success()]`
      with one shared error object. */
  function ReadNames(t: Target, obj: nat, n: nat): (r: Result<seq<string>>)
    ensures r.Ok? ==> ReadPrefix(NameRead(t, obj), 0, n, r.value)
  {
    ListWhileOkPrefix(NameRead(t, obj), 0, n);
    ListWhileOk(NameRead(t, obj), 0, n, false)
  }

  /** The arguments of one `CreateValueFromExpression` child: its name, its type's name, its index. */
  datatype ChildRequest = ChildRequest(name: string, typeName: string, index: nat)

  /** The object provider's `_values` list over `range(count)`; `names[index]` raises `IndexError`
      for an index the names list does not reach. */
  function ChildRequests(snap: Snapshot, names: seq<string>): (r: Result<seq<ChildRequest>>)
    ensures r.Ok? <==> |names| >= Len(snap.count) && |snap.typeNames| >= Len(snap.count)
    ensures r.Raise? ==> r.fault == IndexOutOfRange
    ensures r.Ok? ==> |r.value| == Len(snap.count) &&
                      forall i :: 0 <= i < |r.value| ==> r.value[i] == ChildRequest(names[i], snap.typeNames[i], i)
  {
    var f := (i: nat) =>
      if i < |names| && i < |snap.typeNames| then Ok(ChildRequest(names[i], snap.typeNames[i], i))
      else Raise(IndexOutOfRange);
    var n := Len(snap.count);
    var r := ListOf(f, 0, n);
    assert r.Ok? && n > 0 ==> f(n - 1).Ok?;
    assert |names| >= n && |snap.typeNames| >= n ==> forall i :: 0 <= i < n ==> f(i).Ok?;
    r
  }

  /** What a complete `KonanObjectSyntheticProvider.update` assigns: snapshot, names, child list. */
  function ObjectFields(t: Target, obj: nat): (r: Result<(Snapshot, seq<string>, seq<ChildRequest>)>)
    ensures r.Ok? ==> TakeSnapshot(t, obj) == Ok(r.value.0)
    ensures r.Ok? ==> |r.value.1| == Len(r.value.0.count) && |r.value.2| == Len(r.value.0.count)
    ensures r.Ok? ==> ReadPrefix(NameRead(t, obj), 0, Len(r.value.0.count), r.value.1)
  {
    var snap :- TakeSnapshot(t, obj);
    var names :- ReadNames(t, obj, Len(snap.count));
    var children :- ChildRequests(snap, names);
    Ok((snap, names, children))
  }

  /* ---------------- Providers ---------------- */

  datatype Provider =
    | StringProvider(representation: Display)
    | ObjectProvider(ptr: nat, snap: Snapshot, names: seq<string>, children: seq<ChildRequest>)
    | ArrayProvider(ptr: nat, snap: Snapshot, indices: seq<nat>, values: seq<Display>)

  /** `KonanStringSyntheticProvider.__init__`: the text the runtime rendered into its scratch buffer,
      or the raw value when it rendered nothing or the buffer cannot be read. */
  function StringRepresentation(t: Target, v: SBValue): (d: Display)
    ensures d == Fallback(v) || d.Str?
  {
    var length := AsUnsigned(t.eval(RenderToBuffer(AsUnsigned(v))));
    if length == 0 then Fallback(v)
    else
      var cs := HostCString(t.memory, AsUnsigned(t.eval(BufferAddress)), length);
      if cs.ok then Str(AsText(cs.bytes)) else Fallback(v)
  }

  /** `KonanObjectSyntheticProvider.__init__`: the unset fields, `update`, whose exception escapes,
      then `_values` reset to empty. */
  function NewObjectProvider(t: Target, ptr: nat): (r: Result<Provider>)
    ensures r.Ok? <==> ObjectFields(t, ptr).Ok?
    ensures r.Ok? ==> var u := ObjectFields(t, ptr).value; r.value == ObjectProvider(ptr, u.0, u.1, [])
    ensures r.Raise? ==> ObjectFields(t, ptr) == Raise(r.fault)
  {
    var u := ObjectUpdate(t, ptr, Unset, [], []);
    if u.fault.Some? then Raise(u.fault.value) else Ok(u.provider.(children := []))
  }

  /** `range(0, count)` as the array provider's child list. */
  function Indices(count: int): (s: seq<nat>)
    ensures |s| == Len(count) && forall i :: 0 <= i < |s| ==> s[i] == i
  {
    seq(Len(count), i requires 0 <= i => i as nat)
  }

  /** Width in bytes of the memory read a tag's conversion performs; 0 when it reads nothing. */
  function ReadWidth(tag: nat): nat {
    match tag
    case 2 => 1
    case 3 => 2
    case 4 => 4
    case 5 => 8
    case 6 => 4
    case 7 => 8
    case 9 => 4
    case _ => 0
  }

  /** The soft failure `__read_memory` returns: "error: " and the address in hexadecimal. */
  function ErrorMarker(address: int): string {
    "error: " + Numerals.FormatHex(address)
  }

  /** `struct.unpack(fmt, content)[0]` for the format of `tag` on exactly its width of bytes. */
  function Unpack(tag: nat, bs: seq<byte>): (r: Result<Display>)
    requires ReadWidth(tag) > 0 && |bs| == ReadWidth(tag)
    ensures r.Raise? <==> tag == 9
    ensures 3 <= tag <= 5 ==> r.Ok? && r.value.Int? && -LittleEndian.Half(|bs|) <= r.value.i < LittleEndian.Half(|bs|)
    ensures 3 <= tag <= 5 ==> LittleEndian.EncodeSigned(r.value.i, |bs|) == bs
    ensures tag == 2 ==> r == Ok(Char(bs[0]))
    ensures tag == 6 || tag == 7 ==> r == Ok(RawFloat(bs))
  {
    LittleEndian.SignedInverse(bs);
    match tag
    case 2 => Ok(Char(bs[0]))
    case 6 => Ok(RawFloat(bs))
    case 7 => Ok(RawFloat(bs))
    case 9 => Raise(UnpackSize)  // `<?` needs one byte, the read gives four
    case _ => Ok(Int(LittleEndian.DecodeSigned(bs)))
  }

  /** `__read_memory`: one read into the shared error object, then the unpacked value when the
      object reports success and the error marker otherwise. */
  function ReadScalar(t: Target, tag: nat, address: int, failed: bool): (r: Result<(Display, bool)>)
    requires ReadWidth(tag) > 0
    ensures r.Raise? ==> tag == 9 && r.fault == UnpackSize
    ensures r.Ok? ==> r.value.1 == AfterRead(t.policy, failed, !Readable(t.memory, address, ReadWidth(tag)))
    ensures r.Ok? && r.value.1 ==> r.value.0 == Str(ErrorMarker(address))
    ensures r.Ok? && !r.value.1 ==>
              Readable(t.memory, address, ReadWidth(tag)) &&
              Unpack(tag, ReadMemory(t.memory, address, ReadWidth(tag)).value) == Ok(r.value.0)
  {
    var bytes := ReadMemory(t.memory, address, ReadWidth(tag));
    var flag := AfterRead(t.policy, failed, bytes.None?);
    if flag then Ok((Str(ErrorMarker(address)), flag))
    else
      var d :- Unpack(tag, bytes.value);
      Ok((d, flag))
  }

  /** The error object's state after field `i` is converted: only the memory-reading tags touch it. */
  function FlagStep(t: Target, snap: Snapshot, i: nat, failed: bool): bool {
    if i < |snap.tags| && i < |snap.addresses| && ReadWidth(snap.tags[i]) > 0 then
      AfterRead(t.policy, failed, !Readable(t.memory, snap.addresses[i], ReadWidth(snap.tags[i])))
    else failed
  }

  /** The error object's state after fields `lo, …, hi - 1` are converted in order. */
  function FlagAfter(t: Target, snap: Snapshot, lo: nat, hi: nat, failed: bool): bool
    requires lo <= hi
    decreases hi - lo
  {
    if lo == hi then failed else FlagAfter(t, snap, lo + 1, hi, FlagStep(t, snap, lo, failed))
  }

  /** `_read_value(i, error)`: the conversion table applied to field `i`'s tag and address.
      Tag 1 re-enters the summary hook on the dereferenced field; `fuel` bounds that nesting
      as Python's recursion limit does. */
  function ReadValue(t: Target, snap: Snapshot, i: nat, failed: bool, fuel: nat): (r: Result<(Display, bool)>)
    ensures r.Ok? ==> i < |snap.tags| && i < |snap.addresses| && r.value.1 == FlagStep(t, snap, i, failed)
    decreases fuel, 0, 0
  {
    if i >= |snap.tags| || i >= |snap.addresses| then Raise(IndexOutOfRange)
    else
      var tag, address := snap.tags[i], snap.addresses[i];
      if tag == 0 then Ok((Str("<invalid>" + Numerals.FormatHex(address)), failed))
      else if tag == 1 then
        if fuel == 0 then Raise(RecursionLimit)
        else
          var d :- Summary(t, t.eval(Deref(address)), fuel - 1);
          Ok((d, failed))
      else if tag == 8 then Ok((Str("(void *)" + Numerals.FormatHex(address)), failed))
      else if tag > 9 then Raise(UnknownTag(tag))
      else ReadScalar(t, tag, address, failed)
  }

  /** `[_read_value(i, error) for i in range(lo, hi)]` with one shared error object. */
  function ReadValues(t: Target, snap: Snapshot, lo: nat, hi: nat, failed: bool, fuel: nat)
    : (r: Result<(seq<Display>, bool)>)
    requires lo <= hi
    ensures r.Ok? ==> |r.value.0| == hi - lo && r.value.1 == FlagAfter(t, snap, lo, hi, failed)
    decreases fuel, 1, hi - lo
  {
    if lo == hi then Ok(([], failed))
    else
      var first :- ReadValue(t, snap, lo, failed, fuel);
      var rest :- ReadValues(t, snap, lo + 1, hi, first.1, fuel);
      Ok(([first.0] + rest.0, rest.1))
  }

  /** `kotlin_object_type_summary`: the raw value for any other static type, "null" when the
      self-reference gate fails, otherwise the selected provider's `to_string()`. */
  function Summary(t: Target, v: SBValue, fuel: nat): (r: Result<Display>)
    ensures TypeString(v) != ObjHeaderType ==> r == Ok(Fallback(v))
    ensures TypeString(v) == ObjHeaderType && !TypeInfoValid(t, SummaryOperand(v)) ==> r == Ok(Str(NullMarker))
    ensures r.Ok? && r != Ok(Fallback(v)) && r != Ok(Str(NullMarker)) ==>
              TypeString(v) == ObjHeaderType && SelectProvider(t, v, fuel).Ok?
    decreases fuel, 4, 0
  {
    if TypeString(v) != ObjHeaderType then Ok(Fallback(v))
    else if !TypeInfoValid(t, SummaryOperand(v)) then Ok(Str(NullMarker))
    else
      var p :- SelectProvider(t, v, fuel);
      ToString(t, p, fuel)
  }

  /** `select_provider`: classify, then build exactly one provider of that kind. */
  function SelectProvider(t: Target, v: SBValue, fuel: nat): (r: Result<Provider>)
    ensures Classify(t, AsUnsigned(v)).Raise? ==> r == Raise(Classify(t, AsUnsigned(v)).fault)
    ensures r.Ok? ==> (r.value.StringProvider? <==> IsString(t, AsUnsigned(v)))
    ensures r.Ok? && r.value.ArrayProvider? ==> IntOf(t.eval(IsArray(AsUnsigned(v)))) == Ok(1)
    ensures r.Ok? && !r.value.StringProvider? ==> r.value.ptr == AsUnsigned(v)
    decreases fuel, 3, 0
  {
    var kind :- Classify(t, AsUnsigned(v));
    Construct(t, v, kind, fuel)
  }

  /** The factory, as a choice over the closed set of kinds. */
  function Construct(t: Target, v: SBValue, kind: Kind, fuel: nat): (r: Result<Provider>)
    ensures r.Ok? ==> match kind
                      case StringKind => r.value.StringProvider?
                      case ArrayKind => r.value.ArrayProvider?
                      case ObjectKind => r.value.ObjectProvider?
    decreases fuel, 2, 1
  {
    match kind
    case StringKind => Ok(StringProvider(StringRepresentation(t, v)))
    case ObjectKind => NewObjectProvider(t, AsUnsigned(v))
    case ArrayKind => NewArrayProvider(t, AsUnsigned(v), fuel)
  }

  /** `KonanArraySyntheticProvider.__init__`: `update`, then every element read eagerly with one
      shared error object, raising `DebuggerException` when that object reports failure. */
  function NewArrayProvider(t: Target, ptr: nat, fuel: nat): (r: Result<Provider>)
    ensures r.Ok? ==> r.value.ArrayProvider? && r.value.ptr == ptr &&
                      |r.value.values| == Len(r.value.snap.count) == |r.value.indices|
    decreases fuel, 2, 0
  {
    var u := ArrayUpdate(t, ptr, Unset, [], []);
    if u.fault.Some? then Raise(u.fault.value)
    else
      var snap := u.provider.snap;
      var read :- ReadValues(t, snap, 0, Len(snap.count), false, fuel);
      if read.1 then Raise(ArrayReadFailed)
      else Ok(u.provider.(values := read.0))
  }

  /** `to_string` of each provider. The object form pairs `names[i]` with field `i`'s value for
      every `i` in `range(count)`, so a names list shorter than the count raises `IndexError`
      once the reads before that index are done. */
  function ToString(t: Target, p: Provider, fuel: nat): (r: Result<Display>)
    ensures p.StringProvider? ==> r == Ok(p.representation)
    ensures p.ArrayProvider? && r.Ok? ==> r.value.List? && |r.value.items| == Len(p.snap.count)
    ensures p.ObjectProvider? && r.Ok? ==>
              |p.names| >= Len(p.snap.count) && r.value.Dict? &&
              forall k :: k in r.value.entries <==> k in p.names[..Len(p.snap.count)]
    decreases fuel, 2, 0
  {
    match p
    case StringProvider(representation) => Ok(representation)
    case ObjectProvider(_, snap, names, _) =>
      var n := Len(snap.count);
      if |names| >= n then
        var read :- ReadValues(t, snap, 0, n, false, fuel);
        Ok(Dict(DictOf(names[..n], read.0)))
      else
        var read :- ReadValues(t, snap, 0, |names|, false, fuel);
        Raise(IndexOutOfRange)
    case ArrayProvider(_, snap, _, _) =>
      var read :- ReadValues(t, snap, 0, Len(snap.count), false, fuel);
      Ok(List(read.0))
  }

  /** `dict(zip(keys, vals))`: a later duplicate key overrides an earlier one. */
  function DictOf(keys: seq<string>, vals: seq<Display>): (m: map<string, Display>)
    requires |keys| == |vals|
    ensures forall k :: k in m <==> k in keys
    decreases |keys|
  {
    if |keys| == 0 then map[]
    else
      var last := |keys| - 1;
      assert keys == keys[..last] + [keys[last]];
      DictOf(keys[..last], vals[..last])[keys[last] := vals[last]]
  }

  /* ---------------- Refresh, proxy and the child capabilities ---------------- */

  /** The outcome of `update` on an existing provider: its attributes afterwards, and the exception
      that stopped the update, if any. */
  datatype Updated = Updated(provider: Provider, fault: Option<Fault>)

  /** `KonanObjectSyntheticProvider.update` on a provider holding `snap`, `names` and `children`:
      the snapshot steps, then the names list, then the child list; a list whose step is not
      reached keeps its old value. */
  function ObjectUpdate(t: Target, ptr: nat, snap: Snapshot, names: seq<string>, children: seq<ChildRequest>)
    : (r: Updated)
    ensures r.provider.ObjectProvider? && r.provider.ptr == ptr
    ensures r.fault.None? <==> ObjectFields(t, ptr).Ok?
    ensures r.fault.None? ==>
              var u := ObjectFields(t, ptr).value; r.provider == ObjectProvider(ptr, u.0, u.1, u.2)
    ensures r.fault.Some? ==> ObjectFields(t, ptr) == Raise(r.fault.value) && r.provider.children == children
    ensures r.provider.snap == SnapshotUpdate(t, ptr, snap).0
    ensures r.provider.names != names ==>
              TakeSnapshot(t, ptr).Ok? && ReadPrefix(NameRead(t, ptr), 0, Len(r.provider.snap.count), r.provider.names)
  {
    var (s, e) := SnapshotUpdate(t, ptr, snap);
    if e.Some? then Updated(ObjectProvider(ptr, s, names, children), e)
    else
      match ReadNames(t, ptr, Len(s.count))
      case Raise(f) => Updated(ObjectProvider(ptr, s, names, children), Some(f))
      case Ok(ns) =>
        match ChildRequests(s, ns)
        case Raise(f) => Updated(ObjectProvider(ptr, s, ns, children), Some(f))
        case Ok(cs) => Updated(ObjectProvider(ptr, s, ns, cs), None)
  }

  /** `KonanArraySyntheticProvider.update` on a provider holding `snap`, `indices` and `values`: the
      snapshot steps, then the index list and an emptied value list, neither of which can raise. */
  function ArrayUpdate(t: Target, ptr: nat, snap: Snapshot, indices: seq<nat>, values: seq<Display>): (r: Updated)
    ensures r.provider.ArrayProvider? && r.provider.ptr == ptr
    ensures r.fault.None? <==> TakeSnapshot(t, ptr).Ok?
    ensures r.fault.None? ==>
              var s := TakeSnapshot(t, ptr).value; r.provider == ArrayProvider(ptr, s, Indices(s.count), [])
    ensures r.fault.Some? ==>
              TakeSnapshot(t, ptr) == Raise(r.fault.value) && r.provider.indices == indices && r.provider.values == values
    ensures r.provider.snap == SnapshotUpdate(t, ptr, snap).0
  {
    var (s, e) := SnapshotUpdate(t, ptr, snap);
    if e.Some? then Updated(ArrayProvider(ptr, s, indices, values), e)
    else Updated(ArrayProvider(ptr, s, Indices(s.count), []), None)
  }

  /** `update()` on an existing provider: the string provider's does nothing; the object and array
      providers take a new snapshot of the same object. */
  function Refresh(t: Target, p: Provider): (r: Updated)
    ensures (r.provider.StringProvider? <==> p.StringProvider?) && (r.provider.ObjectProvider? <==> p.ObjectProvider?)
    ensures p.StringProvider? ==> r == Updated(p, None)
    ensures !p.StringProvider? ==> r.provider.ptr == p.ptr && r.provider.snap == SnapshotUpdate(t, p.ptr, p.snap).0
  {
    match p
    case StringProvider(_) => Updated(p, None)
    case ObjectProvider(ptr, snap, names, children) => ObjectUpdate(t, ptr, snap, names, children)
    case ArrayProvider(ptr, snap, indices, values) => ArrayUpdate(t, ptr, snap, indices, values)
  }

  /** `KonanProxyTypeProvider.__init__`: the value's text parsed with `int(…, 0)`, the gate on that
      number, then `select_provider` and `update`. `None` is a proxy the gate turned away, which
      holds no provider. */
  function ProxyProvider(t: Target, v: SBValue, fuel: nat): (r: Result<Option<Provider>>)
    ensures LiteralOf(v).Raise? ==> r == Raise(LiteralOf(v).fault)
    ensures r.Ok? && r.value.Some? ==>
              LiteralOf(v).Ok? && TypeInfoValid(t, IntOperand(LiteralOf(v).value)) &&
              SelectProvider(t, v, fuel).Ok? &&
              Refresh(t, SelectProvider(t, v, fuel).value) == Updated(r.value.value, None)
    ensures r.Raise? && LiteralOf(v).Ok? ==>
              SelectProvider(t, v, fuel).Raise? || Refresh(t, SelectProvider(t, v, fuel).value).fault == Some(r.fault)
  {
    var n :- LiteralOf(v);
    if !TypeInfoValid(t, IntOperand(n)) then Ok(None)
    else
      var p :- SelectProvider(t, v, fuel);
      var u := Refresh(t, p);
      if u.fault.Some? then Raise(u.fault.value) else Ok(Some(u.provider))
  }

  /** `num_children`: 0 for a string, the raw field count otherwise. */
  function NumChildren(p: Provider): (n: int)
    ensures p.StringProvider? ==> n == 0
    ensures !p.StringProvider? ==> n == p.snap.count
  {
    match p
    case StringProvider(_) => 0
    case ObjectProvider(_, snap, _, _) => snap.count
    case ArrayProvider(_, snap, _, _) => snap.count
  }

  /** `has_children`. */
  predicate HasChildren(p: Provider)
    ensures HasChildren(p) <==> NumChildren(p) > 0
  {
    match p
    case StringProvider(_) => false
    case ObjectProvider(_, snap, _, _) => snap.count > 0
    case ArrayProvider(_, snap, _, _) => snap.count > 0
  }

  /** `list.index`: the first position of `x`, or nothing when it is absent. */
  function FirstIndex(xs: seq<string>, x: string): (r: Option<nat>)
    ensures r.None? <==> x !in xs
    ensures r.Some? ==> r.value < |xs| && xs[r.value] == x && x !in xs[..r.value]
  {
    if |xs| == 0 then None
    else if xs[0] == x then Some(0)
    else
      match FirstIndex(xs[1..], x)
      case None => None
      case Some(i) =>
        assert xs[..i + 1] == [xs[0]] + xs[1..][..i];
        Some(i + 1)
  }

  /** `get_child_index(name)`. The string provider has none; the object provider raises for an
      absent name; the array provider parses the name, answers `None` for a negative index, and
      otherwise reads an attribute it never set. */
  function ChildIndex(p: Provider, name: string): (r: Result<Option<nat>>)
    ensures p.ObjectProvider? ==> (r.Ok? <==> name in p.names)
    ensures p.ObjectProvider? && r.Ok? ==>
              r.value.Some? && r.value.value < |p.names| && p.names[r.value.value] == name &&
              name !in p.names[..r.value.value]
    ensures p.ArrayProvider? ==>
              (r == Ok(None) <==> Numerals.ParseDecimal(name).Some? && Numerals.ParseDecimal(name).value < 0)
  {
    match p
    case StringProvider(_) => Ok(None)
    case ObjectProvider(_, _, names, _) =>
      (match FirstIndex(names, name)
       case Some(i) => Ok(Some(i))
       case None => Raise(NameNotFound))
    case ArrayProvider(_, _, _, _) =>
      (match Numerals.ParseDecimal(name)
       case None => Raise(NotAnInteger)
       case Some(n) => if n < 0 then Ok(None) else Raise(MissingAttribute))
  }

  /** A child as the host receives it: a host value built from a request, or a converted value. */
  datatype Child = HostChild(request: ChildRequest) | ValueChild(value: Display)

  /** `get_child_at_index(index)`: the string provider has none; the object provider returns its
      stored child; the array provider converts the element afresh with a new error object, whose
      success is tested before the read and so never turns the result into `None`. */
  function ChildAt(t: Target, p: Provider, index: nat, fuel: nat): (r: Result<Option<Child>>)
    ensures p.ObjectProvider? ==> (r.Ok? <==> index < |p.children|)
    ensures p.ArrayProvider? && r.Ok? ==> r.value.Some? && r.value.value.ValueChild?
  {
    match p
    case StringProvider(_) => Ok(None)
    case ObjectProvider(_, _, _, children) =>
      if index < |children| then Ok(Some(HostChild(children[index]))) else Raise(IndexOutOfRange)
    case ArrayProvider(_, snap, _, _) =>
      var read :- ReadValue(t, snap, index, false, fuel);
      Ok(Some(ValueChild(read.0)))
  }
}

=== FILE: little_endian.dfy ===
/** Little-endian byte assembly and two's-complement reinterpretation, as `struct.unpack` does
    for the formats `<h`, `<i` and `<q`. */
module LittleEndian {
  import opened Bytes

  /** 256 to the power `n`: the number of values `n` bytes can hold. */
  function Pow256(n: nat): (r: nat)
    ensures r > 0
  {
    if n == 0 then 1 else 256 * Pow256(n - 1)
  }

  /** Half of `Pow256(width)`: the first value whose top bit is set. */
  function Half(width: nat): (h: int)
    requires width > 0
    ensures h > 0 && 2 * h == Pow256(width)
  {
    128 * Pow256(width - 1)
  }

  /** Unsigned value of little-endian bytes: the first byte is the least significant. */
  function FromBytes(bs: seq<byte>): (u: nat)
    ensures u < Pow256(|bs|)
  {
    if |bs| == 0 then 0 else bs[0] as nat + 256 * FromBytes(bs[1..])
  }

  /** The `width` little-endian bytes of `u`. */
  function ToBytes(u: nat, width: nat): (bs: seq<byte>)
    requires u < Pow256(width)
    ensures |bs| == width
  {
    if width == 0 then [] else [(u % 256) as byte] + ToBytes(u / 256, width - 1)
  }

  /** The signed number whose `width`-byte two's-complement pattern is `u`. */
  function ToSigned(u: nat, width: nat): (x: int)
    requires width > 0 && u < Pow256(width)
    ensures -Half(width) <= x < Half(width)
    ensures TwosComplement(x, width) == u
  {
    if u < Half(width) then u else u - Pow256(width)
  }

  /** The unsigned `width`-byte pattern of a signed number in range: itself when non-negative,
      otherwise offset by `Pow256(width)`. */
  function TwosComplement(x: int, width: nat): (u: nat)
    requires width > 0 && -Half(width) <= x < Half(width)
    ensures u < Pow256(width)
    ensures (x >= 0 ==> u == x) && (x < 0 ==> u == x + Pow256(width))
  {
    if x >= 0 then x else x + Pow256(width)
  }

  /** Signed little-endian decoding of a non-empty byte sequence. */
  function DecodeSigned(bs: seq<byte>): (x: int)
    requires |bs| > 0
  {
    ToSigned(FromBytes(bs), |bs|)
  }

  /** The `width`-byte little-endian two's-complement pattern of `x`. */
  function EncodeSigned(x: int, width: nat): (bs: seq<byte>)
    requires width > 0 && -Half(width) <= x < Half(width)
    ensures |bs| == width
  {
    ToBytes(TwosComplement(x, width), width)
  }

  lemma {:induction false} FromToBytes(u: nat, width: nat)
    requires u < Pow256(width)
    ensures FromBytes(ToBytes(u, width)) == u
    decreases width
  {
    if width > 0 {
      var bs := ToBytes(u, width);
      assert bs[1..] == ToBytes(u / 256, width - 1);
      FromToBytes(u / 256, width - 1);
    }
  }

  lemma {:induction false} ToFromBytes(bs: seq<byte>)
    ensures ToBytes(FromBytes(bs), |bs|) == bs
    decreases |bs|
  {
    if |bs| > 0 {
      var u := FromBytes(bs);
      assert u % 256 == bs[0] as nat && u / 256 == FromBytes(bs[1..]);
      ToFromBytes(bs[1..]);
    }
  }

  /** Decoding an encoded number gives it back. */
  lemma SignedRoundTrip(x: int, width: nat)
    requires width > 0 && -Half(width) <= x < Half(width)
    ensures DecodeSigned(EncodeSigned(x, width)) == x
  {
    FromToBytes(TwosComplement(x, width), width);
  }

  /** Encoding a decoded byte pattern gives the same bytes: every pattern is some number's encoding. */
  lemma SignedInverse(bs: seq<byte>)
    requires |bs| > 0
    ensures EncodeSigned(DecodeSigned(bs), |bs|) == bs
  {
    ToFromBytes(bs);
  }

  /** The fixed ranges of the three integer widths the script reads. */
  lemma IntegerRanges()
    ensures Half(2) == 0x8000 && Pow256(2) == 0x1_0000
    ensures Half(4) == 0x8000_0000 && Pow256(4) == 0x1_0000_0000
    ensures Half(8) == 0x8000_0000_0000_0000 && Pow256(8) == 0x1_0000_0000_0000_0000
  {
  }
}

=== FILE: numerals.dfy ===
/** The integer text the script produces and consumes: `"{:#x}".format(n)` when it names an
    address, and Python's `int(s)` and `int(s, 0)` when it reads a number the host printed. */
module Numerals {
  import opened Faults

  /** Value of a digit character in bases up to 16; either letter case is accepted. */
  function DigitValue(c: char): (d: Option<nat>)
    ensures d.Some? ==> d.value < 16
  {
    if '0' <= c <= '9' then Some(c as nat - '0' as nat)
    else if 'a' <= c <= 'f' then Some(c as nat - 'a' as nat + 10)
    else if 'A' <= c <= 'F' then Some(c as nat - 'A' as nat + 10)
    else None
  }

  /** Value of a non-empty digit string in `base`, most significant digit first; nothing for the
      empty string or a character that is not a digit below `base`. */
  function ParseDigits(s: string, base: nat): (r: Option<nat>)
    requires 2 <= base <= 16
    ensures r.Some? ==> |s| > 0
    decreases |s|
  {
    if |s| == 0 then None
    else
      match DigitValue(s[|s| - 1])
      case None => None
      case Some(d) =>
        if d >= base then None
        else if |s| == 1 then Some(d)
        else
          match ParseDigits(s[..|s| - 1], base)
          case None => None
          case Some(high) => ScaleIsNatural(high, base, d); Some(high * base + d)
  }

  /** Shifting a value up one digit and adding a digit stays a natural number. */
  lemma ScaleIsNatural(high: nat, base: nat, d: nat)
    ensures high * base + d >= 0
  {
  }

  /** The ASCII whitespace `int()` ignores around its argument. */
  predicate IsSpace(c: char) {
    c == ' ' || c == '\t' || c == '\n' || c == '\r' || c == '\U{B}' || c == '\U{C}'
  }

  /** `s.strip()` over ASCII whitespace. */
  function Trim(s: string): (r: string)
    ensures |r| <= |s|
    ensures |r| > 0 ==> !IsSpace(r[0]) && !IsSpace(r[|r| - 1])
    decreases |s|
  {
    if |s| > 0 && IsSpace(s[0]) then Trim(s[1..])
    else if |s| > 0 && IsSpace(s[|s| - 1]) then Trim(s[..|s| - 1])
    else s
  }

  /** Splits an optional leading `-` or `+` off a literal. */
  function SplitSign(s: string): (bool, string) {
    if |s| > 0 && s[0] == '-' then (true, s[1..])
    else if |s| > 0 && s[0] == '+' then (false, s[1..])
    else (false, s)
  }

  function Signed(negative: bool, m: nat): int {
    if negative then -(m as int) else m
  }

  /** Python 3's `int(s)`: surrounding whitespace, an optional sign, then decimal digits. */
  function ParseDecimal(s: string): (r: Option<int>)
    ensures r.Some? ==> |Trim(s)| > 0 && DigitValue(Trim(s)[|Trim(s)| - 1]).Some?
    ensures r.Some? && r.value < 0 ==> Trim(s)[0] == '-'
  {
    var (negative, body) := SplitSign(Trim(s));
    match ParseDigits(body, 10)
    case None => None
    case Some(m) => Some(Signed(negative, m))
  }

  /** The magnitude part of Python 3's `int(s, 0)`: a `0x`, `0o` or `0b` prefix selects the base;
      an unprefixed literal is decimal and may start with `0` only if it is all zeros. */
  function ParseMagnitude(s: string): Option<nat> {
    if |s| >= 2 && s[0] == '0' && (s[1] == 'x' || s[1] == 'X') then ParseDigits(s[2..], 16)
    else if |s| >= 2 && s[0] == '0' && (s[1] == 'o' || s[1] == 'O') then ParseDigits(s[2..], 8)
    else if |s| >= 2 && s[0] == '0' && (s[1] == 'b' || s[1] == 'B') then ParseDigits(s[2..], 2)
    else if |s| > 0 && s[0] == '0' then
      if forall k :: 0 <= k < |s| ==> s[k] == '0' then Some(0) else None
    else ParseDigits(s, 10)
  }

  /** Python 3's `int(s, 0)`: surrounding whitespace, an optional sign, then a literal whose
      prefix gives its base. */
  function ParseLiteral(s: string): (r: Option<int>)
    ensures r.Some? ==> |Trim(s)| > 0 && DigitValue(Trim(s)[|Trim(s)| - 1]).Some?
    ensures r.Some? && r.value < 0 ==> Trim(s)[0] == '-'
  {
    var (negative, body) := SplitSign(Trim(s));
    match ParseMagnitude(body)
    case None => None
    case Some(m) => Some(Signed(negative, m))
  }

  /** The lower-case digit character of `d`. */
  function DigitChar(d: nat): (c: char)
    requires d < 16
    ensures DigitValue(c) == Some(d)
  {
    if d < 10 then ('0' as nat + d) as char else ('a' as nat + d - 10) as char
  }

  /** Euclidean division of `n` by `base`: the quotient is smaller and the remainder a digit. */
  lemma DivideByBase(n: nat, base: nat)
    requires 2 <= base <= 16 && n >= base
    ensures 0 < n / base < n && n % base < base
    ensures n == n / base * base + n % base
  {
  }

  /** Digits of `n` in `base`, most significant first, without leading zeros. */
  function Digits(n: nat, base: nat): (s: string)
    requires 2 <= base <= 16
    ensures |s| > 0 && forall k :: 0 <= k < |s| ==> DigitValue(s[k]).Some? && DigitValue(s[k]).value < base
    decreases n
  {
    if n < base then [DigitChar(n)]
    else
      DivideByBase(n, base);
      Digits(n / base, base) + [DigitChar(n % base)]
  }

  /** Digits in any base parse back to the number. */
  lemma {:induction false} ParseDigitsRoundTrip(n: nat, base: nat)
    requires 2 <= base <= 16
    ensures ParseDigits(Digits(n, base), base) == Some(n)
    decreases n
  {
    if n >= base {
      DivideByBase(n, base);
      var s := Digits(n, base);
      assert s[..|s| - 1] == Digits(n / base, base);
      assert DigitValue(s[|s| - 1]) == Some(n % base);
      ParseDigitsRoundTrip(n / base, base);
    }
  }

  /** `"{:#x}".format(n)`: `0x` and the hexadecimal digits, after a `-` for a negative number. */
  function FormatHex(n: int): (s: string)
    ensures var start := if n < 0 then 3 else 2;
            |s| > start && s[start - 2..start] == "0x" && (n < 0 <==> s[0] == '-') &&
            forall k :: start <= k < |s| ==> DigitValue(s[k]).Some?
  {
    if n < 0 then "-0x" + Digits(-n, 16) else "0x" + Digits(n, 16)
  }

  /** `str(n)`, as the host prints an `(int)` result: the decimal digits, after a `-` when negative. */
  function FormatDecimal(n: int): (s: string)
    ensures var start := if n < 0 then 1 else 0;
            |s| > start && (n < 0 <==> s[0] == '-') &&
            forall k :: start <= k < |s| ==> DigitValue(s[k]).Some? && DigitValue(s[k]).value < 10
  {
    if n < 0 then "-" + Digits(-n, 10) else Digits(n, 10)
  }

  /** Text that neither starts nor ends with whitespace is left as it is by `Trim`. */
  lemma TrimUnchanged(s: string)
    requires |s| > 0 ==> !IsSpace(s[0]) && !IsSpace(s[|s| - 1])
    ensures Trim(s) == s
  {
  }

  /** A trailing whitespace character does not change what `Trim` keeps. */
  lemma {:induction false} TrimDropsTrailingSpace(s: string, c: char)
    requires IsSpace(c)
    ensures Trim(s + [c]) == Trim(s)
    decreases |s|
  {
    var x := s + [c];
    if |s| > 0 && IsSpace(s[0]) {
      assert x[1..] == s[1..] + [c];
      TrimDropsTrailingSpace(s[1..], c);
    } else if |s| > 0 {
      assert x[..|x| - 1] == s;
    }
  }

  /** `int()` reads a number the same with a whitespace character before or after it. */
  lemma SurroundingSpaceIgnored(s: string, c: char)
    requires IsSpace(c)
    ensures ParseDecimal([c] + s) == ParseDecimal(s)
    ensures ParseDecimal(s + [c]) == ParseDecimal(s)
    ensures ParseLiteral([c] + s) == ParseLiteral(s)
    ensures ParseLiteral(s + [c]) == ParseLiteral(s)
  {
    assert ([c] + s)[1..] == s;
    TrimDropsTrailingSpace(s, c);
  }

  /** The magnitude of a formatted address: `0x` and hexadecimal digits read back in base 16. */
  lemma HexMagnitude(m: nat)
    ensures ParseMagnitude("0x" + Digits(m, 16)) == Some(m)
  {
    var body := "0x" + Digits(m, 16);
    assert body[2..] == Digits(m, 16);
    ParseDigitsRoundTrip(m, 16);
  }

  /** Formatted hex text has no surrounding whitespace. */
  lemma FormatHexTrimmed(n: int)
    ensures Trim(FormatHex(n)) == FormatHex(n)
  {
    var s := FormatHex(n);
    assert s[0] == '-' || s[0] == '0';
    TrimUnchanged(s);
  }

  /** Formatted hex text splits into its sign and the `0x` literal of the magnitude. */
  lemma FormatHexSign(n: int)
    ensures SplitSign(FormatHex(n)) == (n < 0, "0x" + Digits(if n < 0 then -n else n, 16))
  {
    if n < 0 {
      assert FormatHex(n)[1..] == "0x" + Digits(-n, 16);
    }
  }

  /** `int("{:#x}".format(n), 0) == n`: a formatted address reads back as the same address. */
  lemma FormatHexRoundTrip(n: int)
    ensures ParseLiteral(FormatHex(n)) == Some(n)
  {
    FormatHexTrimmed(n);
    FormatHexSign(n);
    HexMagnitude(if n < 0 then -n else n);
  }

  /** A run of `0` characters, as the host pads a pointer to its width. */
  predicate AllZeros(z: string) {
    forall k :: 0 <= k < |z| ==> z[k] == '0'
  }

  /** A non-empty run of zeros reads as 0 in any base. */
  lemma {:induction false} ZerosParse(z: string, base: nat)
    requires 2 <= base <= 16 && |z| > 0 && AllZeros(z)
    ensures ParseDigits(z, base) == Some(0)
    decreases |z|
  {
    if |z| > 1 {
      ZerosParse(z[..|z| - 1], base);
    }
  }

  /** Leading zeros change neither whether digit text parses nor what it reads as. */
  lemma {:induction false} LeadingZerosIgnored(z: string, s: string, base: nat)
    requires 2 <= base <= 16 && |s| > 0 && AllZeros(z)
    ensures ParseDigits(z + s, base) == ParseDigits(s, base)
    decreases |s|
  {
    var x := z + s;
    assert x[|x| - 1] == s[|s| - 1];
    if |s| == 1 {
      if |z| > 0 {
        assert x[..|x| - 1] == z;
        ZerosParse(z, base);
      }
    } else {
      assert x[..|x| - 1] == z + s[..|s| - 1];
      LeadingZerosIgnored(z, s[..|s| - 1], base);
    }
  }

  /** Zero-padded hex text has no surrounding whitespace and no sign, and its magnitude is read
      from the digits after `0x`, padding included. */
  lemma PaddedHexShape(z: string, m: nat)
    requires AllZeros(z)
    ensures var s := "0x" + z + Digits(m, 16);
            Trim(s) == s && SplitSign(s) == (false, s) &&
            ParseMagnitude(s) == ParseDigits(z + Digits(m, 16), 16)
  {
    var s := "0x" + z + Digits(m, 16);
    assert s[0] == '0' && s[1] == 'x';
    assert s[|s| - 1] == Digits(m, 16)[|Digits(m, 16)| - 1];
    TrimUnchanged(s);
    assert s[2..] == z + Digits(m, 16);
  }

  /** `int(p, 0)` of a pointer the host prints zero-padded (`0x0000000100200010`): the padding is
      ignored and the address reads back. */
  lemma PaddedHexRoundTrip(z: string, m: nat)
    requires AllZeros(z)
    ensures ParseLiteral("0x" + z + Digits(m, 16)) == Some(m)
  {
    PaddedHexShape(z, m);
    LeadingZerosIgnored(z, Digits(m, 16), 16);
    ParseDigitsRoundTrip(m, 16);
  }

  /** Printed decimal text has no surrounding whitespace and splits into its sign and digits. */
  lemma FormatDecimalShape(n: int)
    ensures Trim(FormatDecimal(n)) == FormatDecimal(n)
    ensures SplitSign(FormatDecimal(n)) == (n < 0, Digits(if n < 0 then -n else n, 10))
  {
    var s := FormatDecimal(n);
    assert s[0] == '-' || DigitValue(s[0]).Some?;
    TrimUnchanged(s);
    if n < 0 {
      assert s[1..] == Digits(-n, 10);
    }
  }

  /** `int(str(n)) == n`: a number the host prints reads back as the same number. */
  lemma FormatDecimalRoundTrip(n: int)
    ensures ParseDecimal(FormatDecimal(n)) == Some(n)
  {
    FormatDecimalShape(n);
    ParseDigitsRoundTrip(if n < 0 then -n else n, 10);
  }

  /** Distinct numbers format to distinct text, so an expression built from a formatted address
      identifies that address. */
  lemma FormatHexInjective(a: int, b: int)
    requires FormatHex(a) == FormatHex(b)
    ensures a == b
  {
    FormatHexRoundTrip(a);
    FormatHexRoundTrip(b);
  }
}

=== FILE: provider_properties.dfy ===
/** Properties of the three synthetic providers and of the field snapshot they share: what the
    string provider shows, how the object provider's names, children and rendering relate to the
    field count, when the array provider's eager read raises, and what `update` replaces. */
module ProviderProperties {
  import opened Faults
  import opened Bytes
  import opened Host
  import opened Introspection
  import Numerals

  /* ---------------- Snapshot ---------------- */

  /** A tag the name table lacks (a boolean field's tag 9, or anything above) aborts `update` with
      `KeyError`, naming the first such tag among the counted fields. */
  lemma UnnamedTagAbortsSnapshot(t: Target, obj: nat, i: nat)
    requires IntOf(t.eval(FieldCount(obj))).Ok? && i < Len(IntOf(t.eval(FieldCount(obj))).value)
    requires RawTag(t, obj, i) > 8
    ensures TakeSnapshot(t, obj).Raise?
    ensures exists j: nat :: j <= i && RawTag(t, obj, j) > 8 && TakeSnapshot(t, obj).fault == UnknownTag(RawTag(t, obj, j)) &&
              forall k :: 0 <= k < j ==> RawTag(t, obj, k) <= 8
  {
    var count := IntOf(t.eval(FieldCount(obj))).value;
    var f := (j: nat) => LookupTypeName(RawTag(t, obj, j));
    var names := ListOf(f, 0, Len(count));
    assert f(i).Raise?;
    assert names.Raise?;
    var j :| 0 <= j < Len(count) && f(j) == Raise(names.fault) && forall k :: 0 <= k < j ==> f(k).Ok?;
    assert j <= i;
    assert TakeSnapshot(t, obj).fault == UnknownTag(RawTag(t, obj, j));
    forall k | 0 <= k < j
      ensures RawTag(t, obj, k) <= 8
    {
      assert f(k).Ok?;
    }
  }

  /* ---------------- String provider ---------------- */

  /** The length the runtime reports for the string's rendering, and where the rendering lies. */
  function RenderedLength(t: Target, v: SBValue): nat {
    AsUnsigned(t.eval(RenderToBuffer(AsUnsigned(v))))
  }

  function BufferStart(t: Target): nat {
    AsUnsigned(t.eval(BufferAddress))
  }

  /** The string provider shows the raw value when the runtime rendered nothing, the buffer's text
      up to its terminator (or up to one byte short of the reported length, which the host counts
      as room for the terminator) when it can be read, and the raw value again when the buffer
      becomes unreadable first. */
  lemma StringRepresentationCases(t: Target, v: SBValue, bs: seq<byte>, j: nat)
    ensures RenderedLength(t, v) == 0 ==> StringRepresentation(t, v) == Fallback(v)
    ensures RenderedLength(t, v) > 0 && Terminated(t.memory, BufferStart(t), RenderedLength(t, v) - 1, bs) ==>
              StringRepresentation(t, v) == Str(AsText(bs))
    ensures RenderedLength(t, v) > 0 && BrokenAt(t.memory, BufferStart(t), RenderedLength(t, v) - 1, j) ==>
              StringRepresentation(t, v) == Fallback(v)
  {
    var length := RenderedLength(t, v);
    var buf := BufferStart(t);
    if length > 0 && Terminated(t.memory, buf, length - 1, bs) {
      ReadTerminated(t.memory, buf, length - 1, bs);
    }
    if length > 0 && BrokenAt(t.memory, buf, length - 1, j) {
      ReadBroken(t.memory, buf, length - 1, j);
    }
  }

  /** The string provider has no children: zero of them, no index for any name, none at any index. */
  lemma StringProviderHasNoChildren(t: Target, p: Provider, name: string, index: nat, fuel: nat)
    requires p.StringProvider?
    ensures NumChildren(p) == 0 && !HasChildren(p)
    ensures ChildIndex(p, name) == Ok(None)
    ensures ChildAt(t, p, index, fuel) == Ok(None)
    ensures Refresh(t, p) == Updated(p, None)
  {
  }

  /* ---------------- Object provider ---------------- */

  /** When name read `k` is the first to leave the error object failed, the names list holds the
      names of fields `0..k`, the partial name of field `k` included, and no later name is read;
      the provider is then built only when `k` is the last field, and otherwise building it raises
      `IndexError`, because the child list indexes the names list over the whole count. */
  lemma ObjectNamesStopAtFirstFailedRead(t: Target, ptr: nat, k: nat)
    requires TakeSnapshot(t, ptr).Ok? && k < Len(TakeSnapshot(t, ptr).value.count)
    requires forall i :: 0 <= i < k ==> NameRead(t, ptr)(i).Ok? && NameRead(t, ptr)(i).value.1
    requires NameRead(t, ptr)(k).Ok? && !NameRead(t, ptr)(k).value.1
    ensures var names := ReadNames(t, ptr, Len(TakeSnapshot(t, ptr).value.count));
            && names.Ok? && |names.value| == k + 1
            && (forall i :: 0 <= i <= k ==> names.value[i] == NameRead(t, ptr)(i).value.0)
    ensures k + 1 < Len(TakeSnapshot(t, ptr).value.count) ==> NewObjectProvider(t, ptr) == Raise(IndexOutOfRange)
    ensures k + 1 == Len(TakeSnapshot(t, ptr).value.count) ==>
              NewObjectProvider(t, ptr).Ok? && |NewObjectProvider(t, ptr).value.names| == k + 1
  {
    var snap := TakeSnapshot(t, ptr).value;
    var n := Len(snap.count);
    ListWhileOkStopsAt(NameRead(t, ptr), 0, n, k);
    var names := ReadNames(t, ptr, n).value;
    assert Aligned(snap);
    if k + 1 < n {
      assert ChildRequests(snap, names) == Raise(IndexOutOfRange);
      assert ObjectFields(t, ptr) == Raise(IndexOutOfRange);
    } else {
      var children := ChildRequests(snap, names).value;
      assert ObjectFields(t, ptr) == Ok((snap, names, children));
    }
  }

  /** A built object provider has one name per counted field, reports the raw count as its number
      of children, and has children exactly when that count is positive; the child list stays empty
      until the next `update`. */
  lemma ObjectProviderCounts(t: Target, ptr: nat)
    requires NewObjectProvider(t, ptr).Ok?
    ensures var p := NewObjectProvider(t, ptr).value;
            && IntOf(t.eval(FieldCount(ptr))) == Ok(NumChildren(p))
            && |p.names| == Len(NumChildren(p))
            && (HasChildren(p) <==> NumChildren(p) > 0)
            && p.children == []
  {
  }

  /** `dict(zip(keys, vals))` maps a key that does not recur later to its own value. */
  lemma {:induction false} DictOfLastWins(keys: seq<string>, vals: seq<Display>, i: nat)
    requires |keys| == |vals| && i < |keys| && keys[i] !in keys[i + 1..]
    ensures keys[i] in DictOf(keys, vals) && DictOf(keys, vals)[keys[i]] == vals[i]
    decreases |keys|
  {
    var last := |keys| - 1;
    if i < last {
      assert keys[last] in keys[i + 1..];
      assert keys[..last][i + 1..] == keys[i + 1..last];
      forall m | i + 1 <= m < last ensures keys[m] in keys[i + 1..] {
        assert keys[i + 1..][m - (i + 1)] == keys[m];
      }
      DictOfLastWins(keys[..last], vals[..last], i);
    }
  }

  /** A built object provider renders as a dictionary keyed by exactly its names, in which a name
      that no later field repeats maps to its own field's value; the only failures come from
      converting the values, never from the names list. */
  lemma ObjectRendering(t: Target, ptr: nat, fuel: nat)
    requires NewObjectProvider(t, ptr).Ok?
    ensures var p := NewObjectProvider(t, ptr).value;
            var vals := ReadValues(t, p.snap, 0, Len(p.snap.count), false, fuel);
            var r := ToString(t, p, fuel);
            && (r.Raise? <==> vals.Raise?)
            && (r.Raise? ==> r.fault == vals.fault)
            && (r.Ok? ==> r.value.Dict? &&
                          (forall k :: k in r.value.entries <==> k in p.names) &&
                          (forall i :: 0 <= i < |p.names| && p.names[i] !in p.names[i + 1..] ==>
                             p.names[i] in r.value.entries && r.value.entries[p.names[i]] == vals.value.0[i]))
  {
    var p := NewObjectProvider(t, ptr).value;
    var n := Len(p.snap.count);
    assert p.names[..n] == p.names;
    var vals := ReadValues(t, p.snap, 0, n, false, fuel);
    if vals.Ok? {
      forall i | 0 <= i < |p.names| && p.names[i] !in p.names[i + 1..]
        ensures DictOf(p.names, vals.value.0)[p.names[i]] == vals.value.0[i]
      {
        DictOfLastWins(p.names, vals.value.0, i);
      }
    }
  }

  /* ---------------- Array provider and the shared error object ---------------- */

  /** Field `i`'s conversion reads memory. */
  predicate ReadsAt(snap: Snapshot, i: nat) {
    i < |snap.tags| && i < |snap.addresses| && ReadWidth(snap.tags[i]) > 0
  }

  /** Field `i`'s conversion reads memory, and that read fails. */
  predicate ReadFailsAt(t: Target, snap: Snapshot, i: nat) {
    ReadsAt(snap, i) && !Readable(t.memory, snap.addresses[i], ReadWidth(snap.tags[i]))
  }

  /** With a host whose error object stays failed, the object ends failed exactly when it started
      failed or some field's read failed. */
  lemma {:induction false} StickyFlag(t: Target, snap: Snapshot, lo: nat, hi: nat, failed: bool)
    requires lo <= hi && t.policy.Sticky?
    ensures FlagAfter(t, snap, lo, hi, failed) <==> failed || exists i :: lo <= i < hi && ReadFailsAt(t, snap, i)
    decreases hi - lo
  {
    if lo < hi {
      StickyFlag(t, snap, lo + 1, hi, FlagStep(t, snap, lo, failed));
      assert FlagStep(t, snap, lo, failed) == (failed || ReadFailsAt(t, snap, lo));
    }
  }

  /** With a host that clears the error object on each read, it ends failed exactly when the last
      field that reads memory failed its read, or, when no field reads memory, when it started failed. */
  lemma {:induction false} ClearingFlag(t: Target, snap: Snapshot, lo: nat, hi: nat, failed: bool)
    requires lo <= hi && t.policy.ClearedByEachRead?
    ensures FlagAfter(t, snap, lo, hi, failed) <==>
              (exists i :: lo <= i < hi && ReadFailsAt(t, snap, i) && forall j :: i < j < hi ==> !ReadsAt(snap, j))
              || (failed && forall j :: lo <= j < hi ==> !ReadsAt(snap, j))
    decreases hi - lo
  {
    if lo < hi {
      var step := FlagStep(t, snap, lo, failed);
      ClearingFlag(t, snap, lo + 1, hi, step);
      if ReadsAt(snap, lo) {
        assert step == ReadFailsAt(t, snap, lo);
      } else {
        assert step == failed;
      }
    }
  }

  /** Building an array provider succeeds exactly when the eager read of every element leaves the
      shared error object successful, and then holds those elements in order; it raises
      `DebuggerException` otherwise. */
  lemma ArrayRaisesIffErrorFlag(t: Target, ptr: nat, fuel: nat)
    requires TakeSnapshot(t, ptr).Ok?
    requires ReadValues(t, TakeSnapshot(t, ptr).value, 0, Len(TakeSnapshot(t, ptr).value.count), false, fuel).Ok?
    ensures var snap := TakeSnapshot(t, ptr).value;
            var vals := ReadValues(t, snap, 0, Len(snap.count), false, fuel);
            && (NewArrayProvider(t, ptr, fuel) == Raise(ArrayReadFailed) <==> FlagAfter(t, snap, 0, Len(snap.count), false))
            && (NewArrayProvider(t, ptr, fuel).Ok? ==>
                  NewArrayProvider(t, ptr, fuel).value.snap == snap &&
                  NewArrayProvider(t, ptr, fuel).value.values == vals.value.0)
  {
  }

  /** With a sticky error object, building an array raises exactly when some element's read fails. */
  lemma StickyArrayRaisesOnAnyFailedRead(t: Target, ptr: nat, fuel: nat)
    requires t.policy.Sticky? && TakeSnapshot(t, ptr).Ok?
    requires ReadValues(t, TakeSnapshot(t, ptr).value, 0, Len(TakeSnapshot(t, ptr).value.count), false, fuel).Ok?
    ensures var snap := TakeSnapshot(t, ptr).value;
            NewArrayProvider(t, ptr, fuel) == Raise(ArrayReadFailed) <==>
              exists i :: 0 <= i < Len(snap.count) && ReadFailsAt(t, snap, i)
  {
    var snap := TakeSnapshot(t, ptr).value;
    ArrayRaisesIffErrorFlag(t, ptr, fuel);
    StickyFlag(t, snap, 0, Len(snap.count), false);
  }

  /** With an error object each read clears, building an array raises exactly when the last element
      that reads memory fails its read: an earlier failure is forgotten. */
  lemma ClearingArrayRaisesOnLastFailedRead(t: Target, ptr: nat, fuel: nat)
    requires t.policy.ClearedByEachRead? && TakeSnapshot(t, ptr).Ok?
    requires ReadValues(t, TakeSnapshot(t, ptr).value, 0, Len(TakeSnapshot(t, ptr).value.count), false, fuel).Ok?
    ensures var snap := TakeSnapshot(t, ptr).value;
            var n := Len(snap.count);
            NewArrayProvider(t, ptr, fuel) == Raise(ArrayReadFailed) <==>
              exists i :: 0 <= i < n && ReadFailsAt(t, snap, i) && forall j :: i < j < n ==> !ReadsAt(snap, j)
  {
    var snap := TakeSnapshot(t, ptr).value;
    ArrayRaisesIffErrorFlag(t, ptr, fuel);
    ClearingFlag(t, snap, 0, Len(snap.count), false);
  }

  /** An array renders as a list with one entry per counted element; a built array renders as
      exactly the elements it read eagerly, since both reads see the same target. */
  lemma ArrayRendering(t: Target, p: Provider, fuel: nat)
    requires p.ArrayProvider?
    ensures ToString(t, p, fuel).Ok? ==>
              ToString(t, p, fuel).value.List? && |ToString(t, p, fuel).value.items| == Len(p.snap.count)
    ensures NewArrayProvider(t, p.ptr, fuel) == Ok(p) ==> ToString(t, p, fuel) == Ok(List(p.values))
  {
  }

  /** The array provider's `get_child_index` answers `None` for a negative index; any other
      numeric name reaches an attribute the provider never set, and a name that is not a number
      fails to parse. */
  lemma ArrayChildIndexCases(p: Provider, name: string)
    requires p.ArrayProvider?
    ensures var n := Numerals.ParseDecimal(name);
            && (n.Some? && n.value < 0 ==> ChildIndex(p, name) == Ok(None))
            && (n.Some? && n.value >= 0 ==> ChildIndex(p, name) == Raise(MissingAttribute))
            && (n.None? ==> ChildIndex(p, name) == Raise(NotAnInteger))
    ensures ChildIndex(p, name).Ok? ==> ChildIndex(p, name).value.None?
  {
  }

  /** The array provider's `get_child_index` parses its name with `int()`, so surrounding
      whitespace does not change the answer: `" -1"` is a negative index too. */
  lemma ArrayChildIndexIgnoresSpace(p: Provider, name: string, c: char)
    requires p.ArrayProvider? && Numerals.IsSpace(c)
    ensures ChildIndex(p, [c] + name) == ChildIndex(p, name)
    ensures ChildIndex(p, name + [c]) == ChildIndex(p, name)
  {
    Numerals.SurroundingSpaceIgnored(name, c);
  }

  /** The array provider's child at an index is that element converted afresh, returned even when
      its read fails, since the error object is tested before the read. */
  lemma ArrayChildAtReadsAfresh(t: Target, p: Provider, index: nat, fuel: nat)
    requires p.ArrayProvider?
    ensures var r := ReadValue(t, p.snap, index, false, fuel);
            && (r.Ok? ==> ChildAt(t, p, index, fuel) == Ok(Some(ValueChild(r.value.0))))
            && (r.Raise? ==> ChildAt(t, p, index, fuel) == Raise(r.fault))
  {
  }

  /* ---------------- Update ---------------- */

  /** `update` on an object or array provider takes a fresh snapshot of the same object from the
      current target. When it completes, the reported child count is the target's current field
      count, the object provider's child list is rebuilt and the array provider's value list
      emptied; when the snapshot raises, `update` raises the same exception. */
  lemma RefreshTakesNewSnapshot(t: Target, p: Provider)
    requires !p.StringProvider?
    ensures var r := Refresh(t, p);
            && r.provider.ptr == p.ptr
            && (r.fault.None? ==> TakeSnapshot(t, p.ptr) == Ok(r.provider.snap) &&
                                  IntOf(t.eval(FieldCount(p.ptr))) == Ok(NumChildren(r.provider)))
            && (r.fault.None? && r.provider.ArrayProvider? ==>
                  r.provider.values == [] && r.provider.indices == Indices(r.provider.snap.count))
            && (r.fault.None? && r.provider.ObjectProvider? ==>
                  |r.provider.names| == Len(r.provider.snap.count) && |r.provider.children| == Len(r.provider.snap.count) &&
                  forall i :: 0 <= i < |r.provider.children| ==>
                    r.provider.children[i] == ChildRequest(r.provider.names[i], r.provider.snap.typeNames[i], i))
            && (TakeSnapshot(t, p.ptr).Raise? ==> r.fault == Some(TakeSnapshot(t, p.ptr).fault))
  {
  }

  /** A completed `update` leaves nothing of the provider's earlier state: two providers of the same
      kind for the same object end up identical. */
  lemma CompletedRefreshForgetsPrior(t: Target, p: Provider, q: Provider)
    requires !p.StringProvider? && !q.StringProvider? && p.ptr == q.ptr
    requires p.ObjectProvider? <==> q.ObjectProvider?
    requires Refresh(t, p).fault.None?
    ensures Refresh(t, q) == Refresh(t, p)
  {
  }

  /** An `update` that raises part-way leaves a half-updated provider: when the field count parses
      but a counted field's tag has no name, the provider reports the new count and raw tags yet
      keeps its old type names, addresses, names and child list, so the child count and those lists
      can disagree. */
  lemma HalfUpdatedObject(t: Target, p: Provider, i: nat)
    requires p.ObjectProvider?
    requires IntOf(t.eval(FieldCount(p.ptr))).Ok? && i < Len(IntOf(t.eval(FieldCount(p.ptr))).value)
    requires RawTag(t, p.ptr, i) > 8
    ensures var r := Refresh(t, p);
            && r.fault.Some? && r.fault.value.UnknownTag?
            && NumChildren(r.provider) == IntOf(t.eval(FieldCount(p.ptr))).value
            && (forall k :: 0 <= k < |r.provider.snap.tags| ==> r.provider.snap.tags[k] == RawTag(t, p.ptr, k))
            && r.provider.snap.typeNames == p.snap.typeNames && r.provider.snap.addresses == p.snap.addresses
            && r.provider.names == p.names && r.provider.children == p.children
  {
    UnnamedTagAbortsSnapshot(t, p.ptr, i);
    var s := SnapshotUpdate(t, p.ptr, p.snap).0;
    assert TypeName(s.tags[i]).None?;
  }

  /** A proxy for an object holds one child request per counted field, each naming its field, its
      field's type and its index. */
  lemma ProxyObjectChildren(t: Target, v: SBValue, fuel: nat)
    requires ProxyProvider(t, v, fuel).Ok? && ProxyProvider(t, v, fuel).value.Some?
    ensures var q := ProxyProvider(t, v, fuel).value.value;
            q.ObjectProvider? ==>
              |q.children| == Len(q.snap.count) &&
              forall i :: 0 <= i < |q.children| ==> q.children[i] == ChildRequest(q.names[i], q.snap.typeNames[i], i)
  {
    var p := SelectProvider(t, v, fuel).value;
    if ProxyProvider(t, v, fuel).value.value.ObjectProvider? {
      assert Refresh(t, p).provider.ObjectProvider?;
      RefreshTakesNewSnapshot(t, p);
    }
  }
}
